=== FILE: README.md ===
# Shopping cart core, modelled in Dafny

This project models the shopping-cart core of a small e-commerce site and proves properties of the model. The site has two parts:

- an Express back end, `server.js`. It handles accounts with bearer tokens, a product catalog, one cart per user, and orders.
- browser scripts, `public/main.js` and `public/cart.js`. They keep a guest cart and a local user list in `localStorage`, and they hold a few small page rules.

Each route handler and each browser operation is a pure function. It takes the stored state and the request fields and returns the reply and the new state.

- The server's JSON file is a `Db` record with `users`, `products`, `carts`, `orders` and `shipping` (`server_db.dfy`). A route returns a `Response`: the reply, which is a body or an `HttpError(status, message)`, plus the dataset as the route left it.
- Absent or falsy request strings are `""`.
- A JavaScript `Number(x)` result is an `Option<int>`, where `None` stands for NaN. The `||` defaults are written out in `js.dfy`.
- `bcrypt`, `jsonwebtoken`, `randomUUID()` and `Date.now()` are parameters. The `Env` record in `server_api.dfy` carries them into `ServerApi.Serve`.
- Prices are exact `real`s.

Files:

| file | module | what it holds |
|---|---|---|
| `results.dfy` | `Results` | `Option`, `Result` |
| `seqs.dfy` | `Seqs` | `find`, `findIndex`, `filter` on sequences, and the keys-distinct invariant |
| `js.dfy` | `Js` | the `x \|\| d` defaults |
| `text.dfy` | `Text` | `split(' ')` / join, decimal `String(n)` |
| `server_cart_items.dfy` | `CartItems` | rows of a server cart: merge-add, set-quantity, drop |
| `server_db.dfy` | `ServerDb` | the dataset, replies, and the well-formedness invariant |
| `server_routes.dfy` | `ServerRoutes` | the cart, order and catalog routes |
| `server_auth.dfy` | `ServerAuth` | `authMiddleware`, register, login |
| `server_api.dfy` | `ServerApi` | one entry point for every request; the invariant is preserved |
| `guest_cart.dfy` | `GuestCart` | the browser cart: add, update quantity, remove, badge |
| `local_accounts.dfy` | `LocalAccounts` | the browser's own register and login |
| `storefront.dfy` | `Storefront` | the language switch, the deals countdown, product tile ids |
| `cart_page.dfy` | `CartPage` | quantity select, remove and save-for-later by index, summary, checkout |

## Model

| member | source | states |
|---|---|---|
| CartItems.ItemIndex | server.js:146 | the row `find` picks: the first row with the product id; none exactly when no row has it |
| CartItems.MergeAdd | server.js:146-148 | a product already in the cart keeps the row count and gains `n` in quantity. A new product appends exactly one row `(pid, n)`. Other products' rows are untouched, the product then has a row, and ids stay distinct |
| CartItems.MergeAddOthers | server.js:146-148 | adding one product leaves every other product's total quantity unchanged |
| CartItems.AddAllSums | server.js:146-148 | a run of adds for one product sums the added quantities into a single row, and ids stay distinct |
| CartItems.QtyOfDistinct | server.js:146 | with distinct ids, a product's total quantity is the quantity of its one row |
| CartItems.SetQty | server.js:158-161 | no row for the product gives the 404 (None). Otherwise every remaining row is positive, each is an old row or the updated one, and the cart does not grow. A positive new quantity leaves the row `(pid, q)` in the cart, and the rows of other products are exactly the old ones that were positive, in their order |
| CartItems.SetQtyRow | server.js:158-161 | with distinct ids, after the update the product has a row iff the new quantity is positive, holding that quantity; ids stay distinct |
| CartItems.SetQtyInPlace | server.js:158-161 | on a cart whose rows are all positive, a positive quantity rewrites the product's row in place, and a non-positive one splices that row out with the other rows kept in order |
| CartItems.SetQtyOthers | server.js:160-161 | setting one product's quantity keeps the other products' positive rows in order and removes their non-positive ones (a negative row merged in by a POST goes too); when all rows were positive, no other product's rows change |
| CartItems.Drop | server.js:171 | every kept row belongs to another product and comes from the cart, and every row of another product is kept |
| CartItems.DropConcat | server.js:171 | dropping from two runs of rows is dropping from each and concatenating, so the kept rows stay in order |
| CartItems.DropSingle | server.js:171 | a single row is kept exactly once when it belongs to another product, and not at all otherwise |
| CartItems.QtyOfDrop | server.js:171 | after dropping, the product's quantity is 0 and every other product's quantity is unchanged |
| CartItems.DropIdempotent | server.js:171 | dropping twice equals dropping once |
| CartItems.DropAbsent | server.js:171 | dropping an absent product leaves the rows unchanged |
| CartItems.DropDistinct | server.js:171 | dropping keeps ids distinct |
| CartItems.DropAfterMergeAdd | server.js:146-148 | adding then dropping a product gives the same rows as dropping it straight away |
| CartItems.DropFilterPositive | server.js:161 | dropping a product commutes with removing non-positive rows |
| ServerDb.CartIndex | server.js:144 | the position of the user's first stored cart; none iff the user has no cart |
| ServerDb.CartOf | server.js:135 | the cart every route treats as the user's is a stored cart of that user, present iff one exists |
| ServerRoutes.ReplaceCart | server.js:144-148 | rewriting the user's cart in place makes it the cart the user reads back, and changes nothing for anyone else |
| ServerRoutes.AppendCart | server.js:145 | the lazily created cart is the user's cart afterwards, adds exactly one cart and changes nothing for anyone else |
| ServerRoutes.GetCart | server.js:133-137 | writes nothing and returns the user's rows, or an empty cart for a user with none |
| ServerRoutes.PostCart | server.js:139-151 | fails (400 "Missing productId", dataset unchanged) iff the product id is missing. Otherwise the user's rows become the merge-add of `Number(qty) \|\| 1`, the reply is the stored cart, and a cart is created iff there was none. Other users' carts, accounts, catalog and orders are unchanged |
| ServerRoutes.PutCart | server.js:153-164 | 404 "Cart not found" without a cart and 404 "Item not found" without the row; succeeds iff the row exists, then the rows are the set-quantity result for `Number(qty) \|\| 0`, all positive, and nothing else changes |
| ServerRoutes.DeleteCart | server.js:166-174 | 404 "Cart not found" iff the user has no cart. Otherwise the rows are the drop result, the product is gone, and nothing else changes |
| ServerRoutes.PlaceOrder | server.js:177-188 | appends exactly one order, which has the given id, the caller, the caller's rows (none without a cart), status `created`, and the request's shipping and payment, each replaced by `{}` when absent. The caller then has no cart, and other carts and existing orders are unchanged |
| ServerRoutes.ListOrders | server.js:190-194 | writes nothing; every listed order is a stored order of the caller, and every stored order of the caller is listed |
| ServerRoutes.ListOrdersConcat | server.js:192 | listing from two runs of stored orders is listing from each and concatenating, so the caller's orders keep their stored order |
| ServerRoutes.ListOrdersSingle | server.js:192 | a single stored order is listed exactly once when it is the caller's, and not at all otherwise |
| ServerRoutes.ListOrdersAfterPlace | server.js:181-185 | a placed order is the last in its owner's list, and no other user's list changes |
| ServerRoutes.PlaceOrderTwice | server.js:180-185 | an empty cart does not stop an order: a second order right after the first is placed with no rows |
| ServerRoutes.DeleteCartIdempotent | server.js:166-174 | a second delete of the same product gives the same reply and leaves the same dataset as the first, whether the first found a cart or answered 404 |
| ServerRoutes.DeleteAfterPost | server.js:139-174 | adding a product and then deleting it leaves the caller's other rows as they were |
| ServerRoutes.ListProducts | server.js:102-105 | writes nothing and returns the catalog |
| ServerRoutes.GetProduct | server.js:108-113 | fails with 404 "Not found" iff no product has the id. Otherwise it returns a stored product with that id. Nothing is written |
| ServerRoutes.CreateProduct | server.js:116-124 | 400 "Missing title or price" iff the title is missing or the price is missing, NaN or 0. Otherwise it appends exactly the new product and returns it |
| ServerRoutes.GetProductAfterCreate | server.js:108-124 | a product created under a fresh id is what the lookup by that id returns |
| ServerAuth.ParseAuthorization | server.js:59-63 | an empty header gives 401 "Missing Authorization header", any other rejection is 401 "Bad Authorization format", and an accepted header is exactly `Bearer ` followed by a token without spaces |
| ServerAuth.BearerHeaderAccepted | server.js:61-63 | every `Bearer <token>` header whose token has no space is accepted with that token |
| ServerAuth.Authenticate | server.js:58-71 | every failure is a 401. It succeeds iff the header parses and the token verifies, giving the verified claims; a parsed token that fails is "Invalid token" |
| ServerAuth.UserByEmail | server.js:93 | the user `find` picks by email: a stored user with that email, and none exactly when no user has it |
| ServerAuth.Register | server.js:76-87 | 400 "Missing email or password", then 400 "User already exists", each leaving the dataset alone. It succeeds iff both fields are present and the email is new, appending exactly one user holding the password's hash and replying with the public user and its token. Only the users change: products, carts, orders and shipping options stay as they were. Emails stay distinct |
| ServerAuth.Login | server.js:90-99 | writes nothing. Every failure is exactly 400 "Invalid credentials" (for a password that is present). It succeeds iff the first user with the email exists and the password matches its hash, replying for that user |
| ServerAuth.LoginAfterRegister | server.js:76-99 | when the hash check accepts a password's own hash, a fresh registration can log straight in and gets the same reply |
| ServerAuth.RegisterTwice | server.js:80 | registering the same email again is refused and changes nothing |
| ServerApi.Dispatch | server.js:133-194 | no protected route changes another user's cart, the accounts or the catalog. Existing orders stay as a prefix, and any new order belongs to the caller |
| ServerApi.Serve | server.js:58-71 | a request whose token is rejected gets a 401 and changes nothing; an accepted one changes no other user's cart |
| ServerApi.ServeKeepsWellFormed | server.js:76-194 | every request keeps one cart per user, one row per product in each cart, and one account per email |
| ServerApi.PutCartOutcome | server.js:153-164 | in a well-formed dataset, after a successful PUT the product has a row iff `Number(qty) \|\| 0` is positive, and then holds exactly that |
| GuestCart.IdIndex | public/main.js:399 | the row `find` picks by id: the first row with the id, and none exactly when no row has it |
| GuestCart.AddToCart | public/main.js:397-405 | a known id keeps the row count and its row becomes `(qty \|\| 1) + (item.qty \|\| 1)` with the captured fields kept. A new id is appended with qty defaulting to 1. Other rows are unchanged and ids stay distinct |
| GuestCart.UpdateQty | public/main.js:407-415 | an unknown id changes nothing. Otherwise only that row's quantity changes, to the parsed value when it is at least 1 and to 1 otherwise. Ids stay distinct and every row stays at 1 or more |
| GuestCart.RemoveItem | public/main.js:417-422 | every kept row has another id and comes from the cart, and every row with another id is kept; distinct ids and the at-least-1 invariant are preserved |
| GuestCart.RemoveConcat | public/main.js:418 | removing from two runs of rows is removing from each and concatenating, so the kept rows stay in order |
| GuestCart.RemoveSingle | public/main.js:418 | a single row is kept exactly once when it has another id, and not at all otherwise |
| GuestCart.RemoveIdempotent | public/main.js:418 | removing twice is removing once |
| GuestCart.RemoveAbsent | public/main.js:418 | removing an id the cart lacks changes nothing |
| GuestCart.RemoveAfterAdd | public/main.js:397-422 | adding an item and then removing its id gives the same cart as removing it straight away |
| GuestCart.BadgeAppend | public/main.js:393 | the badge `BadgeCount` is the left-to-right `reduce`: appending a row adds exactly its shown quantity `qty \|\| 1` |
| GuestCart.BadgeAtLeastRows | public/main.js:393 | with every row at 1 or more, the badge is at least the row count |
| GuestCart.BadgeAfterAdd | public/main.js:393-402 | when every row is at 1 or more and the offer has no quantity or one of at least 1 (as every add button passes), adding raises the badge by the added quantity, and every row stays at 1 or more |
| GuestCart.BadgeAfterUpdate | public/main.js:393-411 | setting a quantity moves the badge by the change in that row's shown quantity |
| LocalAccounts.UserNamed | public/main.js:294 | the entry `find` picks by user name: one with that name, and none exactly when no entry has it |
| LocalAccounts.Credentials | public/main.js:305 | the entry `find` picks by user and password: one matching both, and none exactly when no entry matches both |
| LocalAccounts.LocalRegister | public/main.js:292-298 | any empty field gives "Please complete all fields", and a taken user gives "User already exists". It succeeds iff neither applies, appending exactly one entry and making it the current user |
| LocalAccounts.LocalLogin | public/main.js:303-307 | empty fields give "Please enter credentials" and other failures give "Invalid credentials". It succeeds iff some entry matches both user and password, leaving the list alone and making the first such entry current |
| LocalAccounts.LocalLoginAfterRegister | public/main.js:292-307 | a fresh local registration logs in with the same user and password, under the registered name |
| LocalAccounts.LocalRegisterTwice | public/main.js:294-295 | registering a taken user again is refused whatever the password |
| Storefront.IndexOf | public/main.js:143 | `indexOf`: -1 exactly when the label is not in the list, otherwise the first position holding it |
| Storefront.Step | public/main.js:143-145 | a click on a four-option switch always shows an option; a label that is not an option gives the first, and with distinct options an option never stays |
| Storefront.NextLang | public/main.js:122-147 | a click always shows one of the four options. An unrecognised label gives the first option, and an option never stays in place |
| Storefront.NextLangAt | public/main.js:143-145 | a click on the option at `i` shows the option at `(i + 1) mod 4` |
| Storefront.ClicksFrom | public/main.js:143-145 | `n` clicks from the option at `i` land on the option at `(i + n) mod 4` |
| Storefront.LangCycle | public/main.js:122-147 | from any option, four clicks come back to it and one to three clicks never do |
| Storefront.CountdownTick | public/main.js:629-644 | hours < 24, minutes < 60, seconds < 60, and the shown time is at most the time left and within one second of it. The interval stops exactly when the target is reached, and then everything shows 0 |
| Storefront.CountdownUnique | public/main.js:630-637 | the shown clock is the only one within those ranges that fits the time left |
| Storefront.TileId | public/main.js:459-461 | the id is never empty. It is the `data-id`, else the image, else the title's first `min(36, length)` characters, else `p_` followed by the decimal digits of the tile's position, with no leading zero (the digits are `0` only for position 0) |
| Storefront.TileIdFallbackDistinct | public/main.js:461 | bare tiles at different positions get different ids |
| CartPage.SelectQty | public/cart.js:69-76 | fails (the page throws, nothing stored) iff the position is past the end. Otherwise it stores exactly the chosen quantity in that row and leaves the length and every other row unchanged |
| CartPage.RemoveAt | public/cart.js:79-86 | a position in range removes exactly that row, keeping the order of the rest and the multiset minus that row. A position past the end changes nothing |
| CartPage.SaveForLater | public/cart.js:88-96 | the same effect on the cart as remove. It hands back the removed row, present iff the position is in range, and putting that row back at its position restores the cart |
| CartPage.LineTotal | public/cart.js:103 | a row adds its price times its quantity, and a missing (0) quantity counts as 1 |
| CartPage.SubtotalAppend | public/cart.js:103 | the subtotal `Subtotal` is the left-to-right `reduce`: appending a row adds exactly its line total |
| CartPage.SubtotalAfterRemove | public/cart.js:79-103 | removing a row takes exactly its line total off the subtotal |
| CartPage.SubtotalAfterSelect | public/cart.js:69-103 | choosing a quantity replaces exactly that row's line total in the subtotal |
| CartPage.BadgeAfterRemove | public/cart.js:79-86 | removing a row on the cart page lowers the storefront badge by that row's shown quantity |
| CartPage.SubtotalNonNegative | public/cart.js:103 | with no negative price and every row at 1 or more, the subtotal is not negative |
| CartPage.Summarize | public/cart.js:103-106 | shipping is 0 exactly when the subtotal is over 100, else 9.99; the tax is 0.06 × subtotal, and the total is subtotal + shipping + tax. For a non-negative subtotal, the total lies between the subtotal and 1.06 × subtotal + 9.99 |
| CartPage.FreeShippingCliff | public/cart.js:104-106 | a subtotal just over 100 can cost less in total than a smaller one, when the extra tax is below the shipping saved |
| CartPage.Checkout | public/cart.js:120-130 | checkout is blocked with "Please log in before checkout." with no current user (checked first), then with "Cart is empty.". It completes iff there is a user and rows, and then the cart is emptied; a blocked checkout leaves the cart as it was |
| CartPage.CheckoutTwice | public/cart.js:123-127 | right after a checkout, a second one is blocked on the empty cart |
| Text.Split | server.js:61 | `split(' ')` gives at least one piece, and no piece holds a space |
| Text.JoinSplit | server.js:61 | joining the pieces of `split(' ')` gives back the header |
| Text.SplitJoin | server.js:61 | splitting a join of space-free pieces gives back the pieces |

## Behaviour worth knowing

- Orders from an empty cart: `POST /api/orders` places an order with no rows when the caller's cart is empty or missing, as `ServerRoutes.PlaceOrderTwice` shows.
- Add quantities as they come: `POST /api/cart` adds `Number(qty) || 1`, which replaces only 0 and NaN, so a negative quantity is added as is. A later PUT of any product in that cart removes the negative row, as `CartItems.SetQtyOthers` states.
- Product prices: `POST /api/products` accepts a negative price and rejects a price of 0, because `!price` is true for 0.
- Totals use captured prices: the server computes no totals. The only totals are the cart page's, computed from the prices captured when each item was added.
- The two merge rules differ: the browser merge counts a missing quantity as 1 (`qty || 1`), while the server merge counts it as 0 (`qty || 0`).

## Left out

- File I/O: `readDB`/`writeDB`, seeding and initialisation of `db.json` are left out. The dataset is a value passed in and returned.
- `GET /api/shipping` and `GET /api/health`: pure reads with no rules.
- Library calls: `bcrypt` and `jsonwebtoken` are opaque parameters. Token expiry is part of `verify` and is not modelled.
- Server plumbing: Express routing, CORS, body parsing and the listener are left out.
- Browser glue: DOM building, rendering, toasts, the auth modal markup, the ship-to menu, the subscribe form, mobile menus and `public/list.js` are presentation only and left out.
- Storage format: the JSON round trip through `localStorage` is left out. Each key is modelled as a plain value.
- Number formatting and parsing: `fmt`/`fmtPrice` (`toFixed`), `parsePrice` (`parseFloat`) and the `parseInt`/`Number` parsing of strings are left out. Parsed numbers arrive as `Option<int>`.
- Non-integer quantities and non-number prices: fractional quantities, `Infinity`, and quantities or prices sent as strings are left out. Prices are exact reals, with no IEEE rounding.
- `trim()` and Unicode: the auth form's `trim()` is left out (fields arrive trimmed), as are the search filter's `toLowerCase`, and `slice(0, 36)` counts UTF-16 code units where the model counts characters.
- ServerAuth.Register: each request is modelled as one step that nothing interleaves with. In server.js:79-84 the route reads the file, awaits `bcrypt.hash`, and only then writes its copy back. A request that completes during that wait has its write overwritten, for example a cart change. Two overlapping registrations for one email both pass the check at server.js:80, and the second write drops the first account even though its token was issued. That lost update is not modelled.
- ServerAuth.Login: an absent password is passed as `""`, so a known email with no password gets 400 "Invalid credentials" in the model. In server.js:95, `bcrypt.compare(undefined, hash)` rejects instead, the handler throws and no 400 is sent. What the framework then answers depends on the Express version, which is not part of this model.
- Odd JSON values: a login with a missing email is treated as the empty string, and JSON values other than strings for `shipping`, `payment` and ids are left out.
- CartPage.RemoveAt: the page's `Number(data-idx)` is never negative, so the negative-position behaviour of `splice` is left out.
- `Storefront.CountdownTick`: `padStart(2, "0")` display is left out; the contract is about the four numbers shown.
- Timers and display: interval scheduling, the badge's DOM update, and the storefront's price fallback for tiles are left out.

=== FILE: cart_page.dfy ===
/**
 * The cart page of public/cart.js, over the same stored cart as the storefront:
 * the quantity select, Remove and "Save for later" (both a splice at a row
 * position), the order summary and the simulated checkout. Row positions come
 * from `data-idx` attributes, so they are never negative.
 */
module CartPage {
  import opened Results
  import opened GuestCart
  import LocalAccounts

  /**
   * Choosing `v` in a row's quantity select stores exactly `v` in that row. A
   * position past the end (the cart changed since the page was drawn) throws
   * before anything is stored: None.
   */
  function SelectQty(cart: seq<GuestItem>, i: nat, v: int): (r: Option<seq<GuestItem>>)
    ensures r.Some? <==> i < |cart|
    ensures r.Some? ==> |r.value| == |cart| && r.value[i].qty == v
    ensures r.Some? ==> r.value[i] == cart[i].(qty := r.value[i].qty)
    ensures r.Some? ==> forall j :: 0 <= j < |cart| && j != i ==> r.value[j] == cart[j]
  {
    if i < |cart| then Some(cart[i := cart[i].(qty := v)]) else None
  }

  /** `c.splice(i, 1)` on the stored cart: the row at `i` goes, the rest close up in order. */
  function RemoveAt(cart: seq<GuestItem>, i: nat): (r: seq<GuestItem>)
    ensures i >= |cart| ==> r == cart
    ensures i < |cart| ==> |r| == |cart| - 1
    ensures forall j :: 0 <= j < i && j < |cart| ==> r[j] == cart[j]
    ensures i < |cart| ==> forall j :: i <= j < |r| ==> r[j] == cart[j + 1]
    ensures i < |cart| ==> multiset(r) + multiset{cart[i]} == multiset(cart)
  {
    if i < |cart| then
      assert cart == cart[..i] + [cart[i]] + cart[i + 1..];
      cart[..i] + cart[i + 1..]
    else cart
  }

  /**
   * "Save for later": the same splice, handing back the row taken out (None when
   * the position is past the end, where the page's alert then throws).
   */
  function SaveForLater(cart: seq<GuestItem>, i: nat): (r: (seq<GuestItem>, Option<GuestItem>))
    ensures r.0 == RemoveAt(cart, i)
    ensures r.1.Some? <==> i < |cart|
    ensures r.1.Some? ==> r.0[..i] + [r.1.value] + r.0[i..] == cart
  {
    if i < |cart| then
      var rest := RemoveAt(cart, i);
      assert rest[..i] == cart[..i];
      assert rest[i..] == cart[i + 1..];
      assert cart == cart[..i] + [cart[i]] + cart[i + 1..];
      (rest, Some(cart[i]))
    else (cart, None)
  }

  /** What a row adds to the subtotal: `it.price * (it.qty || 1)`. */
  function LineTotal(it: GuestItem): (r: real)
    ensures it.qty == 0 ==> r == it.price
    ensures it.qty != 0 ==> r == it.price * (it.qty as real)
  {
    it.price * (Shown(it) as real)
  }

  /** `cart.reduce((s, it) => s + it.price * (it.qty || 1), 0)` */
  function Subtotal(cart: seq<GuestItem>): real
    decreases |cart|
  {
    if |cart| == 0 then 0.0 else LineTotal(cart[0]) + Subtotal(cart[1..])
  }

  /** The subtotal read as the page's left-to-right `reduce`: one more row adds its line total. */
  lemma {:induction false} SubtotalAppend(cart: seq<GuestItem>, x: GuestItem)
    ensures Subtotal(cart + [x]) == Subtotal(cart) + LineTotal(x)
    decreases |cart|
  {
    if |cart| == 0 {
      assert cart + [x] == [x];
    } else {
      assert (cart + [x])[1..] == cart[1..] + [x];
      SubtotalAppend(cart[1..], x);
    }
  }

  /** Removing a row takes exactly its line total off the subtotal. */
  lemma {:induction false} SubtotalAfterRemove(cart: seq<GuestItem>, i: nat)
    requires i < |cart|
    ensures Subtotal(RemoveAt(cart, i)) == Subtotal(cart) - LineTotal(cart[i])
    decreases i
  {
    var r := RemoveAt(cart, i);
    if i == 0 {
      assert r == cart[1..];
    } else {
      assert r[0] == cart[0];
      assert r[1..] == RemoveAt(cart[1..], i - 1);
      SubtotalAfterRemove(cart[1..], i - 1);
    }
  }

  /** Choosing a quantity replaces that row's line total and leaves the rest of the subtotal alone. */
  lemma {:induction false} SubtotalAfterSelect(cart: seq<GuestItem>, i: nat, v: int)
    requires i < |cart|
    ensures Subtotal(SelectQty(cart, i, v).value) ==
      Subtotal(cart) - LineTotal(cart[i]) + LineTotal(cart[i].(qty := v))
    decreases i
  {
    var r := SelectQty(cart, i, v).value;
    if i == 0 {
      assert r[1..] == cart[1..];
    } else {
      assert r[0] == cart[0];
      assert r[1..] == SelectQty(cart[1..], i - 1, v).value;
      SubtotalAfterSelect(cart[1..], i - 1, v);
    }
  }

  /** Removing a row lowers the storefront's badge by the quantity that row showed. */
  lemma {:induction false} BadgeAfterRemove(cart: seq<GuestItem>, i: nat)
    requires i < |cart|
    ensures BadgeCount(RemoveAt(cart, i)) == BadgeCount(cart) - Shown(cart[i])
    decreases i
  {
    if i > 0 {
      assert RemoveAt(cart, i)[1..] == RemoveAt(cart[1..], i - 1);
      BadgeAfterRemove(cart[1..], i - 1);
    } else {
      assert RemoveAt(cart, i) == cart[1..];
    }
  }

  /** With no negative price and every row at 1 or more, nothing in the subtotal is negative. */
  lemma {:induction false} SubtotalNonNegative(cart: seq<GuestItem>)
    requires AllAtLeastOne(cart)
    requires forall j :: 0 <= j < |cart| ==> cart[j].price >= 0.0
    ensures Subtotal(cart) >= 0.0
    decreases |cart|
  {
    if |cart| > 0 {
      assert LineTotal(cart[0]) >= 0.0 by {
        assert Shown(cart[0]) == cart[0].qty;
        assert (Shown(cart[0]) as real) >= 1.0;
      }
      SubtotalNonNegative(cart[1..]);
    }
  }

  const FreeShippingOver: real := 100.0
  const FlatShipping: real := 9.99
  const TaxRate: real := 0.06

  datatype Summary = Summary(subtotal: real, shipping: real, tax: real, total: real)

  /** The order summary card. */
  function Summarize(cart: seq<GuestItem>): (s: Summary)
    ensures s.subtotal == Subtotal(cart)
    ensures s.shipping == 0.0 <==> s.subtotal > FreeShippingOver
    ensures s.shipping != 0.0 ==> s.shipping == FlatShipping
    ensures s.tax == s.subtotal * TaxRate
    ensures s.total == s.subtotal + s.shipping + s.tax
    ensures s.subtotal >= 0.0 ==> s.subtotal <= s.total <= s.subtotal * (1.0 + TaxRate) + FlatShipping
  {
    var sub := Subtotal(cart);
    var shipping := if sub > FreeShippingOver then 0.0 else FlatShipping;
    var tax := sub * TaxRate;
    Summary(sub, shipping, tax, sub + shipping + tax)
  }

  /**
   * Crossing the free-shipping line can lower the total: a subtotal just over
   * 100 pays less than one at or under it, when the two are close enough that
   * the extra tax is smaller than the shipping saved.
   */
  lemma FreeShippingCliff(a: seq<GuestItem>, b: seq<GuestItem>)
    requires Subtotal(a) <= FreeShippingOver < Subtotal(b)
    requires (Subtotal(b) - Subtotal(a)) * (1.0 + TaxRate) < FlatShipping
    ensures Summarize(b).total < Summarize(a).total
  {
    var sa := Summarize(a);
    var sb := Summarize(b);
    assert sa.total == Subtotal(a) * (1.0 + TaxRate) + FlatShipping;
    assert sb.total == Subtotal(b) * (1.0 + TaxRate);
  }

  datatype Outcome = Blocked(message: string) | Completed

  /**
   * "Proceed to checkout": blocked without a signed-in local user, then blocked
   * on an empty cart; otherwise the order is simulated and the cart emptied.
   * A blocked checkout leaves the cart as it was.
   */
  function Checkout(current: Option<LocalAccounts.Session>, cart: seq<GuestItem>): (r: (Outcome, seq<GuestItem>))
    ensures current.None? ==> r.0 == Blocked("Please log in before checkout.")
    ensures current.Some? && |cart| == 0 ==> r.0 == Blocked("Cart is empty.")
    ensures r.0 == Completed <==> current.Some? && |cart| > 0
    ensures r.0 == Completed ==> r.1 == []
    ensures r.0.Blocked? ==> r.1 == cart
  {
    if current.None? then (Blocked("Please log in before checkout."), cart)
    else if |cart| == 0 then (Blocked("Cart is empty."), cart)
    else (Completed, [])
  }

  /** Checking out twice in a row: the second attempt finds the cart empty. */
  lemma CheckoutTwice(current: Option<LocalAccounts.Session>, cart: seq<GuestItem>)
    requires Checkout(current, cart).0 == Completed
    ensures Checkout(current, Checkout(current, cart).1) == (Blocked("Cart is empty."), [])
  {
  }
}

=== FILE: guest_cart.dfy ===
/**
 * The browser's own cart in public/main.js, stored under `ecom_cart_v1`: add
 * with merge by id, set a quantity, remove, and the header badge count. Each
 * row is the product as captured when it was added; nothing re-reads the
 * catalog. A stored `qty` of 0 stands for any falsy quantity (missing, 0,
 * NaN): every reader turns it into 1 with `qty || 1`.
 */
module GuestCart {
  import opened Results
  import opened Seqs
  import opened Js

  datatype GuestItem = GuestItem(id: string, title: string, price: real, img: string, qty: int)

  /** The object handed to `addToCart`; `qty` is None when the object has none. */
  datatype Offer = Offer(id: string, title: string, price: real, img: string, qty: Option<int>)

  /** The quantity every reader sees: `it.qty || 1`. */
  function Shown(it: GuestItem): int
  {
    IntOr(it.qty, 1)
  }

  /** `Object.assign({ qty: 1 }, item)`: the offer with a quantity of 1 unless it brings one. */
  function AsRow(o: Offer): GuestItem
  {
    GuestItem(o.id, o.title, o.price, o.img, match o.qty case None => 1 case Some(q) => q)
  }

  function IdOf(it: GuestItem): string
  {
    it.id
  }

  function HasId(id: string): GuestItem -> bool
  {
    (it: GuestItem) => it.id == id
  }

  function OtherId(id: string): GuestItem -> bool
  {
    (it: GuestItem) => it.id != id
  }

  predicate DistinctIds(cart: seq<GuestItem>)
  {
    DistinctBy(cart, IdOf)
  }

  /** Every row holds a quantity of at least 1. */
  predicate AllAtLeastOne(cart: seq<GuestItem>)
  {
    forall j :: 0 <= j < |cart| ==> cart[j].qty >= 1
  }

  /** The row `cart.find(c => c.id === id)` returns. */
  function IdIndex(cart: seq<GuestItem>, id: string): (r: Option<nat>)
    ensures r.Some? ==> r.value < |cart| && cart[r.value].id == id
    ensures r.Some? ==> forall j :: 0 <= j < r.value ==> cart[j].id != id
    ensures r.None? <==> forall j :: 0 <= j < |cart| ==> cart[j].id != id
  {
    FindIndex(cart, HasId(id))
  }

  /**
   * `addToCart`: a row with the same id gets `(qty || 1) + (item.qty || 1)` and
   * keeps its captured title, price and image; otherwise the item is appended.
   */
  function AddToCart(cart: seq<GuestItem>, item: Offer): (r: seq<GuestItem>)
    ensures IdIndex(cart, item.id).Some? ==> |r| == |cart|
    ensures IdIndex(cart, item.id).Some? ==> var k := IdIndex(cart, item.id).value;
      r[k] == cart[k].(qty := Shown(cart[k]) + NumberOr(item.qty, 1))
    ensures IdIndex(cart, item.id).None? ==> r == cart + [AsRow(item)]
    ensures forall j :: 0 <= j < |cart| && cart[j].id != item.id ==> r[j] == cart[j]
    ensures IdIndex(r, item.id).Some?
    ensures DistinctIds(cart) ==> DistinctIds(r)
  {
    match IdIndex(cart, item.id)
    case Some(k) =>
      var row := cart[k].(qty := Shown(cart[k]) + NumberOr(item.qty, 1));
      UpdateDistinctBy(cart, k, row, IdOf);
      assert cart[k := row][k] == row;
      cart[k := row]
    case None =>
      AppendDistinctBy(cart, AsRow(item), IdOf);
      assert (cart + [AsRow(item)])[|cart|] == AsRow(item);
      cart + [AsRow(item)]
  }

  /**
   * `updateCartItemQty`: the row with the id gets `max(1, parseInt(qty, 10) || 1)`;
   * `parsed` is the `parseInt` result, None for NaN. An unknown id changes nothing.
   */
  function UpdateQty(cart: seq<GuestItem>, id: string, parsed: Option<int>): (r: seq<GuestItem>)
    ensures IdIndex(cart, id).None? ==> r == cart
    ensures |r| == |cart|
    ensures forall j :: 0 <= j < |cart| && cart[j].id != id ==> r[j] == cart[j]
    ensures IdIndex(cart, id).Some? ==> var k := IdIndex(cart, id).value;
      && r[k].qty >= 1
      && r[k] == cart[k].(qty := r[k].qty)
      && (parsed.Some? && parsed.value >= 1 ==> r[k].qty == parsed.value)
      && (parsed.None? || parsed.value < 1 ==> r[k].qty == 1)
    ensures DistinctIds(cart) ==> DistinctIds(r)
    ensures AllAtLeastOne(cart) ==> AllAtLeastOne(r)
  {
    match IdIndex(cart, id)
    case None => cart
    case Some(k) =>
      var n := NumberOr(parsed, 1);
      var row := cart[k].(qty := if n > 1 then n else 1);
      UpdateDistinctBy(cart, k, row, IdOf);
      cart[k := row]
  }

  /** `removeCartItem`: keep exactly the rows with another id, in order. */
  function RemoveItem(cart: seq<GuestItem>, id: string): (r: seq<GuestItem>)
    ensures forall j :: 0 <= j < |r| ==> r[j].id != id && r[j] in cart
    ensures forall j :: 0 <= j < |cart| && cart[j].id != id ==> cart[j] in r
    ensures DistinctIds(cart) ==> DistinctIds(r)
    ensures AllAtLeastOne(cart) ==> AllAtLeastOne(r)
  {
    FilterDistinctByIf(cart, OtherId(id), IdOf);
    Filter(cart, OtherId(id))
  }

  /** Removing from two runs of rows removes from each: the kept rows keep their order. */
  lemma RemoveConcat(a: seq<GuestItem>, b: seq<GuestItem>, id: string)
    ensures RemoveItem(a + b, id) == RemoveItem(a, id) + RemoveItem(b, id)
  {
    FilterConcat(a, b, OtherId(id));
  }

  /** A single row is kept, once, exactly when it has another id. */
  lemma RemoveSingle(x: GuestItem, id: string)
    ensures RemoveItem([x], id) == if x.id != id then [x] else []
  {
    assert [x][1..] == [];
  }

  /** Removing twice is removing once. */
  lemma RemoveIdempotent(cart: seq<GuestItem>, id: string)
    ensures RemoveItem(RemoveItem(cart, id), id) == RemoveItem(cart, id)
  {
    FilterIdempotent(cart, OtherId(id));
  }

  /** Removing an id the cart does not hold changes nothing. */
  lemma RemoveAbsent(cart: seq<GuestItem>, id: string)
    requires IdIndex(cart, id).None?
    ensures RemoveItem(cart, id) == cart
  {
    FilterKeepsAll(cart, OtherId(id));
  }

  /** Adding an item and then removing its id leaves the other rows exactly as they were. */
  lemma RemoveAfterAdd(cart: seq<GuestItem>, item: Offer)
    ensures RemoveItem(AddToCart(cart, item), item.id) == RemoveItem(cart, item.id)
  {
    var found := IdIndex(cart, item.id);
    if found.Some? {
      var k := found.value;
      var row := cart[k].(qty := Shown(cart[k]) + NumberOr(item.qty, 1));
      assert AddToCart(cart, item) == cart[k := row];
      RemoveUpdateSame(cart, k, row, item.id);
    } else {
      FilterConcat(cart, [AsRow(item)], OtherId(item.id));
      assert Filter([AsRow(item)], OtherId(item.id)) == [] + Filter([AsRow(item)][1..], OtherId(item.id));
      assert RemoveItem(cart, item.id) + [] == RemoveItem(cart, item.id);
    }
  }

  lemma {:induction false} RemoveUpdateSame(cart: seq<GuestItem>, k: nat, x: GuestItem, id: string)
    requires k < |cart| && cart[k].id == id && x.id == id
    ensures RemoveItem(cart[k := x], id) == RemoveItem(cart, id)
    decreases k
  {
    var u := cart[k := x];
    if k == 0 {
      assert u[1..] == cart[1..];
      assert RemoveItem(u, id) == RemoveItem(u[1..], id);
      assert RemoveItem(cart, id) == RemoveItem(cart[1..], id);
    } else {
      assert u[1..] == cart[1..][k - 1 := x];
      RemoveUpdateSame(cart[1..], k - 1, x, id);
      assert u[0] == cart[0];
    }
  }

  /** The header badge: `cart.reduce((s, it) => s + (it.qty || 1), 0)`. */
  function BadgeCount(cart: seq<GuestItem>): int
    decreases |cart|
  {
    if |cart| == 0 then 0 else Shown(cart[0]) + BadgeCount(cart[1..])
  }

  /** The badge read as the page's left-to-right `reduce`: one more row adds its shown quantity. */
  lemma {:induction false} BadgeAppend(cart: seq<GuestItem>, x: GuestItem)
    ensures BadgeCount(cart + [x]) == BadgeCount(cart) + Shown(x)
    decreases |cart|
  {
    if |cart| == 0 {
      assert cart + [x] == [x];
    } else {
      assert (cart + [x])[1..] == cart[1..] + [x];
      BadgeAppend(cart[1..], x);
    }
  }

  lemma {:induction false} BadgeUpdate(cart: seq<GuestItem>, k: nat, x: GuestItem)
    requires k < |cart|
    ensures BadgeCount(cart[k := x]) == BadgeCount(cart) - Shown(cart[k]) + Shown(x)
    decreases k
  {
    if k > 0 {
      assert cart[k := x][1..] == cart[1..][k - 1 := x];
      BadgeUpdate(cart[1..], k - 1, x);
    } else {
      assert cart[k := x][1..] == cart[1..];
    }
  }

  /** With every row at 1 or more, the badge is at least the number of rows. */
  lemma {:induction false} BadgeAtLeastRows(cart: seq<GuestItem>)
    requires AllAtLeastOne(cart)
    ensures BadgeCount(cart) >= |cart|
    decreases |cart|
  {
    if |cart| > 0 {
      BadgeAtLeastRows(cart[1..]);
    }
  }

  /**
   * Adding an offer with no quantity (as every button passes) or a quantity of
   * at least 1 raises the badge by `item.qty || 1` and keeps every row at 1 or more.
   */
  lemma BadgeAfterAdd(cart: seq<GuestItem>, item: Offer)
    requires AllAtLeastOne(cart)
    requires item.qty.None? || item.qty.value >= 1
    ensures BadgeCount(AddToCart(cart, item)) == BadgeCount(cart) + NumberOr(item.qty, 1)
    ensures AllAtLeastOne(AddToCart(cart, item))
  {
    var r := AddToCart(cart, item);
    match IdIndex(cart, item.id)
    case Some(k) =>
      var row := cart[k].(qty := Shown(cart[k]) + NumberOr(item.qty, 1));
      assert r == cart[k := row];
      BadgeUpdate(cart, k, row);
    case None =>
      BadgeAppend(cart, AsRow(item));
      assert r == cart + [AsRow(item)];
      assert forall j :: 0 <= j < |cart| ==> r[j] == cart[j];
  }

  /** Setting a row's quantity moves the badge by the difference of what the row showed. */
  lemma BadgeAfterUpdate(cart: seq<GuestItem>, id: string, parsed: Option<int>)
    requires IdIndex(cart, id).Some?
    ensures var k := IdIndex(cart, id).value;
      BadgeCount(UpdateQty(cart, id, parsed)) == BadgeCount(cart) - Shown(cart[k]) + UpdateQty(cart, id, parsed)[k].qty
  {
    var k := IdIndex(cart, id).value;
    var r := UpdateQty(cart, id, parsed);
    assert r == cart[k := r[k]];
    BadgeUpdate(cart, k, r[k]);
  }
}

=== FILE: js.dfy ===
/**
 * JavaScript's lenient defaulting, written out. `x || d` yields `d` whenever
 * `x` is falsy; for a number that means 0 or NaN, for a string the empty string.
 * A coerced number (`Number(v)`, `parseInt(v, 10)`) is `None` when it is NaN.
 */
module Js {
  import opened Results

  /** `n || d` for a number that is never NaN. */
  function IntOr(n: int, d: int): int
  {
    if n == 0 then d else n
  }

  /** `Number(v) || d`, where `v` coerced to NaN is `None`. */
  function NumberOr(v: Option<int>, d: int): int
  {
    match v
    case None => d
    case Some(n) => IntOr(n, d)
  }

  /** `s || d` for a string. */
  function StrOr(s: string, d: string): string
  {
    if s == "" then d else s
  }
}

=== FILE: local_accounts.dfy ===
/**
 * The browser-only accounts of public/main.js (`createAuthModal`): a user list
 * under `ecom_users_v1` and the current session under `ecom_current_user_v1`.
 * Passwords are kept and compared as plain text, exactly as the page does.
 * The name and user fields arrive already trimmed.
 */
module LocalAccounts {
  import opened Results
  import opened Seqs

  datatype LocalUser = LocalUser(user: string, pass: string, name: string)

  /** What `setCurrent` stores: `{ user, name }`. */
  datatype Session = Session(user: string, name: string)

  datatype AuthState = AuthState(users: seq<LocalUser>, current: Option<Session>)

  function Named(user: string): LocalUser -> bool
  {
    (u: LocalUser) => u.user == user
  }

  function Matching(user: string, pass: string): LocalUser -> bool
  {
    (u: LocalUser) => u.user == user && u.pass == pass
  }

  /** `users.find(u => u.user === user)` */
  function UserNamed(users: seq<LocalUser>, user: string): (r: Option<LocalUser>)
    ensures r.None? <==> forall j :: 0 <= j < |users| ==> users[j].user != user
    ensures r.Some? ==> r.value in users && r.value.user == user
  {
    Find(users, Named(user))
  }

  /** `users.find(u => u.user === user && u.pass === pass)` */
  function Credentials(users: seq<LocalUser>, user: string, pass: string): (r: Option<LocalUser>)
    ensures r.None? <==> forall j :: 0 <= j < |users| ==> !(users[j].user == user && users[j].pass == pass)
    ensures r.Some? ==> r.value in users && r.value.user == user && r.value.pass == pass
  {
    Find(users, Matching(user, pass))
  }

  /**
   * Submitting the form in register mode: every field is required, a taken
   * user is refused with the list left alone, and otherwise the entry is
   * appended and becomes the current user. The error is the alert's text.
   */
  function LocalRegister(st: AuthState, name: string, user: string, pass: string): (r: Result<AuthState, string>)
    ensures user == "" || pass == "" || name == "" ==> r == Err("Please complete all fields")
    ensures user != "" && pass != "" && name != "" && UserNamed(st.users, user).Some? ==>
      r == Err("User already exists")
    ensures r.Ok? <==> user != "" && pass != "" && name != "" && UserNamed(st.users, user).None?
    ensures r.Ok? ==> r.value.users == st.users + [LocalUser(user, pass, name)]
    ensures r.Ok? ==> r.value.current == Some(Session(user, name))
  {
    if user == "" || pass == "" || name == "" then Err("Please complete all fields")
    else if UserNamed(st.users, user).Some? then Err("User already exists")
    else Ok(AuthState(st.users + [LocalUser(user, pass, name)], Some(Session(user, name))))
  }

  /**
   * Submitting the form in login mode: succeeds exactly when some entry has
   * both the user and the password; the list never changes.
   */
  function LocalLogin(st: AuthState, user: string, pass: string): (r: Result<AuthState, string>)
    ensures user == "" || pass == "" ==> r == Err("Please enter credentials")
    ensures user != "" && pass != "" && r.Err? ==> r.error == "Invalid credentials"
    ensures r.Ok? <==> user != "" && pass != "" && Credentials(st.users, user, pass).Some?
    ensures r.Ok? ==> r.value.users == st.users
    ensures r.Ok? ==> var found := Credentials(st.users, user, pass).value;
      r.value.current == Some(Session(user, found.name))
  {
    if user == "" || pass == "" then Err("Please enter credentials")
    else match Credentials(st.users, user, pass)
      case None => Err("Invalid credentials")
      case Some(found) => Ok(AuthState(st.users, Some(Session(found.user, found.name))))
  }

  /** A fresh registration can log in with the same user and password, as the name it registered. */
  lemma LocalLoginAfterRegister(st: AuthState, name: string, user: string, pass: string, other: Option<Session>)
    requires LocalRegister(st, name, user, pass).Ok?
    ensures var reg := LocalRegister(st, name, user, pass).value;
      LocalLogin(AuthState(reg.users, other), user, pass) == Ok(AuthState(reg.users, Some(Session(user, name))))
  {
    assert Credentials(st.users, user, pass).None?;
    FindAfterAppendNew(st.users, LocalUser(user, pass, name), Matching(user, pass));
  }

  /** Registering a taken user twice is refused the second time, whatever the password. */
  lemma LocalRegisterTwice(st: AuthState, name: string, user: string, pass: string, name2: string, pass2: string)
    requires LocalRegister(st, name, user, pass).Ok?
    requires name2 != "" && pass2 != ""
    ensures var reg := LocalRegister(st, name, user, pass).value;
      LocalRegister(reg, name2, user, pass2) == Err("User already exists")
  {
    FindAfterAppendNew(st.users, LocalUser(user, pass, name), Named(user));
  }
}

=== FILE: results.dfy ===
/** Failure-carrying values shared by every module of the model. */
module Results {

  /** A value that may be missing: an absent request field, a `find` that matched nothing. */
  datatype Option<+T> = None | Some(value: T)

  /** Either a value or an error, for handlers that answer with an error status. */
  datatype Result<+T, +E> = Ok(value: T) | Err(error: E)
}

=== FILE: seqs.dfy ===
/** The two array primitives the shop's code leans on: `find`/`findIndex` and `filter`. */
module Seqs {
  import opened Results

  /** Index of the first element satisfying `p`, the element JavaScript's `find` returns. */
  function FindIndex<T>(s: seq<T>, p: T -> bool): (r: Option<nat>)
    ensures r.Some? ==> r.value < |s| && p(s[r.value])
    ensures r.Some? ==> forall j :: 0 <= j < r.value ==> !p(s[j])
    ensures r.None? <==> forall j :: 0 <= j < |s| ==> !p(s[j])
  {
    if |s| == 0 then None
    else if p(s[0]) then Some(0)
    else match FindIndex(s[1..], p)
      case None => None
      case Some(k) => Some(k + 1)
  }

  /** The elements satisfying `p`, in their original order, as `Array.prototype.filter`. */
  function Filter<T>(s: seq<T>, p: T -> bool): (r: seq<T>)
    ensures |r| <= |s|
    ensures forall j :: 0 <= j < |r| ==> r[j] in s && p(r[j])
    ensures forall j :: 0 <= j < |s| && p(s[j]) ==> s[j] in r
  {
    if |s| == 0 then [] else (if p(s[0]) then [s[0]] else []) + Filter(s[1..], p)
  }

  /** Filtering a concatenation filters each part: the kept elements stay in order. */
  lemma {:induction false} FilterConcat<T>(a: seq<T>, b: seq<T>, p: T -> bool)
    ensures Filter(a + b, p) == Filter(a, p) + Filter(b, p)
    decreases |a|
  {
    if |a| == 0 {
      assert a + b == b;
    } else {
      assert (a + b)[1..] == a[1..] + b;
      FilterConcat(a[1..], b, p);
    }
  }

  /** A filter that every element passes changes nothing. */
  lemma {:induction false} FilterKeepsAll<T>(s: seq<T>, p: T -> bool)
    requires forall j :: 0 <= j < |s| ==> p(s[j])
    ensures Filter(s, p) == s
    decreases |s|
  {
    if |s| > 0 {
      FilterKeepsAll(s[1..], p);
    }
  }

  /** Filtering twice with the same predicate is filtering once. */
  lemma FilterIdempotent<T>(s: seq<T>, p: T -> bool)
    ensures Filter(Filter(s, p), p) == Filter(s, p)
  {
    var r := Filter(s, p);
    FilterKeepsAll(r, p);
  }

  /** No two elements share a key. */
  predicate DistinctBy<T, K(==)>(s: seq<T>, key: T -> K)
  {
    forall i, j :: 0 <= i < j < |s| ==> key(s[i]) != key(s[j])
  }

  /** Keys that were distinct stay distinct after a filter. */
  lemma {:induction false} FilterDistinctBy<T, K>(s: seq<T>, p: T -> bool, key: T -> K)
    requires DistinctBy(s, key)
    ensures DistinctBy(Filter(s, p), key)
    decreases |s|
  {
    if |s| > 0 {
      var rest := s[1..];
      var f := Filter(rest, p);
      assert DistinctBy(rest, key) by {
        forall i, j | 0 <= i < j < |rest|
          ensures key(rest[i]) != key(rest[j])
        {
          assert rest[i] == s[i + 1] && rest[j] == s[j + 1];
        }
      }
      FilterDistinctBy(rest, p, key);
      if p(s[0]) {
        var r := [s[0]] + f;
        forall i, j | 0 <= i < j < |r|
          ensures key(r[i]) != key(r[j])
        {
          if i == 0 {
            assert r[j] == f[j - 1];
            assert f[j - 1] in rest;
            var m :| 0 <= m < |rest| && rest[m] == f[j - 1];
            assert s[m + 1] == r[j];
          } else {
            assert r[i] == f[i - 1] && r[j] == f[j - 1];
          }
        }
        assert Filter(s, p) == r;
      } else {
        assert Filter(s, p) == f;
      }
    }
  }

  lemma FilterDistinctByIf<T, K>(s: seq<T>, p: T -> bool, key: T -> K)
    ensures DistinctBy(s, key) ==> DistinctBy(Filter(s, p), key)
  {
    if DistinctBy(s, key) {
      FilterDistinctBy(s, p, key);
    }
  }

  /** Replacing an element by one with the same key keeps keys distinct. */
  lemma UpdateDistinctBy<T, K>(s: seq<T>, k: nat, x: T, key: T -> K)
    requires k < |s| && key(x) == key(s[k])
    ensures DistinctBy(s, key) ==> DistinctBy(s[k := x], key)
  {
    var r := s[k := x];
    if DistinctBy(s, key) {
      forall i, j | 0 <= i < j < |r|
      ensures key(r[i]) != key(r[j])
    {
        assert key(r[i]) == key(s[i]) && key(r[j]) == key(s[j]);
      }
    }
  }

  /** Appending an element whose key is new keeps keys distinct. */
  lemma AppendDistinctBy<T, K>(s: seq<T>, x: T, key: T -> K)
    requires forall j :: 0 <= j < |s| ==> key(s[j]) != key(x)
    ensures DistinctBy(s, key) ==> DistinctBy(s + [x], key)
  {
    var r := s + [x];
    if DistinctBy(s, key) {
      forall i, j | 0 <= i < j < |r|
        ensures key(r[i]) != key(r[j])
      {
        if j == |s| {
          assert r[j] == x && r[i] == s[i];
        } else {
          assert r[i] == s[i] && r[j] == s[j];
        }
      }
    }
  }

  /** The first element satisfying `p`, as `Array.prototype.find` returns it. */
  function Find<T>(s: seq<T>, p: T -> bool): (r: Option<T>)
    ensures r.Some? ==> r.value in s && p(r.value)
    ensures r.None? <==> forall j :: 0 <= j < |s| ==> !p(s[j])
    decreases |s|
  {
    if |s| == 0 then None else if p(s[0]) then Some(s[0]) else Find(s[1..], p)
  }

  /** `find` returns the element at the index `findIndex` reports. */
  lemma {:induction false} FindAtIndex<T>(s: seq<T>, p: T -> bool)
    ensures FindIndex(s, p).None? ==> Find(s, p).None?
    ensures FindIndex(s, p).Some? ==> Find(s, p) == Some(s[FindIndex(s, p).value])
    decreases |s|
  {
    if |s| > 0 && !p(s[0]) {
      FindAtIndex(s[1..], p);
    }
  }

  /** Filtering out only elements `p` rejects does not change what `find` with `p` returns. */
  lemma {:induction false} FindAfterFilter<T>(s: seq<T>, q: T -> bool, p: T -> bool)
    requires forall j :: 0 <= j < |s| && p(s[j]) ==> q(s[j])
    ensures Find(Filter(s, q), p) == Find(s, p)
    decreases |s|
  {
    if |s| > 0 {
      FindAfterFilter(s[1..], q, p);
      var head := if q(s[0]) then [s[0]] else [];
      var f := Filter(s[1..], q);
      assert Filter(s, q) == head + f;
      if q(s[0]) {
        assert (head + f)[0] == s[0];
        assert (head + f)[1..] == f;
      } else {
        assert head + f == f;
      }
    }
  }

  /** Rewriting an element `p` rejects, into another `p` rejects, does not change `find`. */
  lemma {:induction false} FindAfterUpdate<T>(s: seq<T>, k: nat, x: T, p: T -> bool)
    requires k < |s| && !p(s[k]) && !p(x)
    ensures Find(s[k := x], p) == Find(s, p)
    decreases k
  {
    if k > 0 {
      assert s[k := x][1..] == s[1..][k - 1 := x];
      FindAfterUpdate(s[1..], k - 1, x, p);
    } else {
      assert s[k := x][1..] == s[1..];
    }
  }

  /** Appending an element `p` rejects does not change `find`. */
  lemma {:induction false} FindAfterAppend<T>(s: seq<T>, x: T, p: T -> bool)
    requires !p(x)
    ensures Find(s + [x], p) == Find(s, p)
    decreases |s|
  {
    if |s| == 0 {
      assert s + [x] == [x];
      assert [x][1..] == [];
    } else {
      assert (s + [x])[1..] == s[1..] + [x];
      FindAfterAppend(s[1..], x, p);
    }
  }

  /** Appending the first element `p` accepts makes it what `find` returns. */
  lemma {:induction false} FindAfterAppendNew<T>(s: seq<T>, x: T, p: T -> bool)
    requires Find(s, p).None? && p(x)
    ensures Find(s + [x], p) == Some(x)
    decreases |s|
  {
    if |s| == 0 {
      assert s + [x] == [x];
    } else {
      assert (s + [x])[1..] == s[1..] + [x];
      FindAfterAppendNew(s[1..], x, p);
    }
  }
}

=== FILE: server_api.dfy ===
/**
 * The HTTP surface of server.js as one function: a request, the dataset and the
 * environment (crypto oracles, the fresh id and the clock) to a reply and the
 * dataset written back. Cart and order routes first pass `authMiddleware`.
 */
module ServerApi {
  import opened Results
  import opened Seqs
  import opened CartItems
  import opened ServerDb
  import opened ServerRoutes
  import Auth = ServerAuth

  /** What the server cannot compute itself: bcrypt, jsonwebtoken, `randomUUID()` and `Date.now()`. */
  datatype Env = Env(
    hash: string -> string,
    compare: (string, string) -> bool,
    sign: Auth.Claims -> string,
    verify: string -> Option<Auth.Claims>,
    freshId: string,
    now: int)

  /** The routes behind `authMiddleware`. */
  datatype Route =
    | ReadCart
    | AddItem(productId: string, qty: Option<int>)
    | SetItemQty(productId: string, qty: Option<int>)
    | RemoveItem(productId: string)
    | PlaceOrderRoute(shipping: string, payment: string)
    | ReadOrders

  datatype Request =
    | RegisterRequest(name: string, email: string, password: string)
    | LoginRequest(email: string, password: string)
    | ListProductsRequest
    | GetProductRequest(id: string)
    | CreateProductRequest(title: string, price: Option<real>, description: string, image: string)
    | Protected(authorization: string, route: Route)

  /** One protected route, for the user the token names. */
  function Dispatch(db: Db, uid: string, route: Route, env: Env): (r: Response)
    ensures OthersUntouched(db, r.db, uid)
    ensures SameAccountsAndCatalog(db, r.db)
    ensures forall j :: 0 <= j < |db.orders| ==> j < |r.db.orders| && r.db.orders[j] == db.orders[j]
    ensures forall j :: |db.orders| <= j < |r.db.orders| ==> r.db.orders[j].userId == uid
  {
    match route
    case ReadCart => GetCart(db, uid)
    case AddItem(pid, qty) => PostCart(db, uid, pid, qty)
    case SetItemQty(pid, qty) => PutCart(db, uid, pid, qty)
    case RemoveItem(pid) => DeleteCart(db, uid, pid)
    case PlaceOrderRoute(s, p) => PlaceOrder(db, uid, env.freshId, env.now, s, p)
    case ReadOrders => ListOrders(db, uid)
  }

  /** Serve one request. */
  function Serve(db: Db, env: Env, req: Request): (r: Response)
    ensures req.Protected? && Auth.Authenticate(req.authorization, env.verify).Err? ==>
      r.db == db && r.reply.Err? && r.reply.error.status == 401
    ensures req.Protected? && Auth.Authenticate(req.authorization, env.verify).Ok? ==>
      OthersUntouched(db, r.db, Auth.Authenticate(req.authorization, env.verify).value.id)
  {
    match req
    case RegisterRequest(name, email, password) =>
      Auth.Register(db, name, email, password, env.hash, env.sign, env.freshId, env.now)
    case LoginRequest(email, password) =>
      Auth.Login(db, email, password, env.compare, env.sign)
    case ListProductsRequest => ListProducts(db)
    case GetProductRequest(id) => GetProduct(db, id)
    case CreateProductRequest(title, price, description, image) =>
      CreateProduct(db, title, price, description, image, env.freshId)
    case Protected(header, route) =>
      match Auth.Authenticate(header, env.verify)
      case Err(e) => Response(Err(e), db)
      case Ok(claims) => Dispatch(db, claims.id, route, env)
  }

  /** Rewriting one cart with distinct rows, keeping its owner, keeps the dataset well formed. */
  lemma ReplaceCartWellFormed(db: Db, k: nat, c: Cart)
    requires WellFormed(db)
    requires k < |db.carts| && db.carts[k].userId == c.userId && DistinctIds(c.items)
    ensures WellFormed(db.(carts := db.carts[k := c]))
  {
    UpdateDistinctBy(db.carts, k, c, UserIdOf);
  }

  lemma PostCartWellFormed(db: Db, uid: string, pid: string, qty: Option<int>)
    requires WellFormed(db)
    ensures WellFormed(PostCart(db, uid, pid, qty).db)
  {
    if pid != "" {
      match CartIndex(db.carts, uid)
      case Some(k) =>
        ReplaceCartWellFormed(db, k, db.carts[k].(items := MergeAdd(db.carts[k].items, pid, Js.NumberOr(qty, 1))));
      case None =>
        var c := Cart(uid, MergeAdd([], pid, Js.NumberOr(qty, 1)));
        AppendDistinctBy(db.carts, c, UserIdOf);
    }
  }

  lemma PutCartWellFormed(db: Db, uid: string, pid: string, qty: Option<int>)
    requires WellFormed(db)
    ensures WellFormed(PutCart(db, uid, pid, qty).db)
  {
    match CartIndex(db.carts, uid)
    case None =>
    case Some(k) =>
      var items := db.carts[k].items;
      if ItemIndex(items, pid).Some? {
        SetQtyRow(items, pid, Js.NumberOr(qty, 0));
        ReplaceCartWellFormed(db, k, db.carts[k].(items := SetQty(items, pid, Js.NumberOr(qty, 0)).value));
      }
  }

  lemma DeleteCartWellFormed(db: Db, uid: string, pid: string)
    requires WellFormed(db)
    ensures WellFormed(DeleteCart(db, uid, pid).db)
  {
    match CartIndex(db.carts, uid)
    case None =>
    case Some(k) =>
      DropDistinct(db.carts[k].items, pid);
      ReplaceCartWellFormed(db, k, db.carts[k].(items := Drop(db.carts[k].items, pid)));
  }

  lemma PlaceOrderWellFormed(db: Db, uid: string, env: Env, s: string, p: string)
    requires WellFormed(db)
    ensures WellFormed(PlaceOrder(db, uid, env.freshId, env.now, s, p).db)
  {
    var carts := Filter(db.carts, NotOwnedBy(uid));
    FilterDistinctBy(db.carts, NotOwnedBy(uid), UserIdOf);
    forall i | 0 <= i < |carts|
      ensures DistinctIds(carts[i].items)
    {
      assert carts[i] in db.carts;
    }
  }

  /** Every protected route keeps the dataset well formed. */
  lemma DispatchKeepsWellFormed(db: Db, uid: string, route: Route, env: Env)
    requires WellFormed(db)
    ensures WellFormed(Dispatch(db, uid, route, env).db)
  {
    match route
    case ReadCart =>
    case AddItem(pid, qty) => PostCartWellFormed(db, uid, pid, qty);
    case SetItemQty(pid, qty) => PutCartWellFormed(db, uid, pid, qty);
    case RemoveItem(pid) => DeleteCartWellFormed(db, uid, pid);
    case PlaceOrderRoute(s, p) => PlaceOrderWellFormed(db, uid, env, s, p);
    case ReadOrders =>
  }

  /**
   * Every request keeps one cart per user, one row per product in a cart and
   * one account per email, when the dataset had them before.
   */
  lemma ServeKeepsWellFormed(db: Db, env: Env, req: Request)
    requires WellFormed(db)
    ensures WellFormed(Serve(db, env, req).db)
  {
    if req.Protected? {
      var auth := Auth.Authenticate(req.authorization, env.verify);
      if auth.Ok? {
        assert Serve(db, env, req) == Dispatch(db, auth.value.id, req.route, env);
        DispatchKeepsWellFormed(db, auth.value.id, req.route, env);
      }
    }
  }

  /** In a well-formed dataset, after a successful PUT every row of the caller's cart is positive and the product's row holds the new quantity or is gone. */
  lemma PutCartOutcome(db: Db, uid: string, pid: string, qty: Option<int>)
    requires WellFormed(db)
    requires PutCart(db, uid, pid, qty).reply.Ok?
    ensures var after := ItemsOf(PutCart(db, uid, pid, qty).db, uid);
      && (ItemIndex(after, pid).Some? <==> Js.NumberOr(qty, 0) > 0)
      && QtyOf(after, pid) == (if Js.NumberOr(qty, 0) > 0 then Js.NumberOr(qty, 0) else 0)
  {
    var k := CartIndex(db.carts, uid).value;
    CartOfAtIndex(db, uid);
    SetQtyRow(db.carts[k].items, pid, Js.NumberOr(qty, 0));
  }
}

=== FILE: server_auth.dfy ===
/**
 * Accounts and bearer tokens in server.js: the `Authorization` header check of
 * `authMiddleware`, registration and login. bcrypt and jsonwebtoken are
 * oracles passed in: `hash` for `bcrypt.hash`, `compare` for `bcrypt.compare`,
 * `sign` for `jwt.sign` and `verify` for `jwt.verify` (None when it throws).
 */
module ServerAuth {
  import opened Results
  import opened Seqs
  import opened Text
  import opened ServerDb

  /** The payload a token carries: `{ id, email }`. */
  datatype Claims = Claims(id: string, email: string)

  /**
   * The header check: a missing (or empty) header, then anything that does not
   * split on single spaces into exactly `Bearer` and one more piece, is a 401.
   */
  function ParseAuthorization(header: string): (r: Result<string, HttpError>)
    ensures header == "" ==> r == Err(HttpError(401, "Missing Authorization header"))
    ensures header != "" && r.Err? ==> r.error == HttpError(401, "Bad Authorization format")
    ensures r.Ok? ==> header == "Bearer " + r.value && ' ' !in r.value
  {
    if header == "" then Err(HttpError(401, "Missing Authorization header"))
    else
      var parts := Split(header, ' ');
      if |parts| != 2 || parts[0] != "Bearer" then Err(HttpError(401, "Bad Authorization format"))
      else
        JoinSplit(header, ' ');
        assert Join(parts, ' ') == parts[0] + [' '] + parts[1];
        Ok(parts[1])
  }

  /** Every header of the form `Bearer <token>`, with no space in the token, passes the check. */
  lemma BearerHeaderAccepted(token: string)
    requires ' ' !in token
    ensures ParseAuthorization("Bearer " + token) == Ok(token)
  {
    var parts := ["Bearer", token];
    assert Join(parts, ' ') == "Bearer " + token by {
      assert Join(parts[1..], ' ') == token;
    }
    SplitJoin(parts, ' ');
  }

  /** `authMiddleware`: the claims of a well-formed header whose token verifies, else a 401. */
  function Authenticate(header: string, verify: string -> Option<Claims>): (r: Result<Claims, HttpError>)
    ensures r.Err? ==> r.error.status == 401
    ensures r.Ok? <==> ParseAuthorization(header).Ok? && verify(ParseAuthorization(header).value).Some?
    ensures r.Ok? ==> r.value == verify(ParseAuthorization(header).value).value
    ensures ParseAuthorization(header).Ok? && r.Err? ==> r.error == HttpError(401, "Invalid token")
  {
    match ParseAuthorization(header)
    case Err(e) => Err(e)
    case Ok(token) =>
      match verify(token)
      case None => Err(HttpError(401, "Invalid token"))
      case Some(claims) => Ok(claims)
  }

  function HasEmail(email: string): User -> bool
  {
    (u: User) => u.email == email
  }

  /** `db.users.find(u => u.email === email)` */
  function UserByEmail(users: seq<User>, email: string): (r: Option<User>)
    ensures r.Some? ==> r.value in users && r.value.email == email
    ensures r.None? <==> forall j :: 0 <= j < |users| ==> users[j].email != email
  {
    Find(users, HasEmail(email))
  }

  function Public(u: User): PublicUser
  {
    PublicUser(u.id, u.name, u.email)
  }

  /** The token `createToken` signs for a user. */
  function TokenFor(u: User, sign: Claims -> string): string
  {
    sign(Claims(u.id, u.email))
  }

  /**
   * POST /api/auth/register: both email and password are required, an email
   * already on file is refused, and otherwise exactly one user is appended,
   * holding the hash of the password.
   */
  function Register(
    db: Db, name: string, email: string, password: string,
    hash: string -> string, sign: Claims -> string, newId: string, now: int): (r: Response)
    ensures email == "" || password == "" ==> r == Fail(db, 400, "Missing email or password")
    ensures email != "" && password != "" && UserByEmail(db.users, email).Some? ==>
      r == Fail(db, 400, "User already exists")
    ensures r.reply.Ok? <==> email != "" && password != "" && UserByEmail(db.users, email).None?
    ensures r.reply.Ok? ==> r.db.users == db.users + [User(newId, name, email, hash(password), now)]
    ensures r.reply.Ok? ==>
      r.reply.value == SessionBody(PublicUser(newId, name, email), sign(Claims(newId, email)))
    ensures r.db.products == db.products && r.db.carts == db.carts && r.db.orders == db.orders
    ensures r.db.shipping == db.shipping
    ensures DistinctBy(db.users, EmailOf) ==> DistinctBy(r.db.users, EmailOf)
  {
    if email == "" || password == "" then Fail(db, 400, "Missing email or password")
    else if UserByEmail(db.users, email).Some? then Fail(db, 400, "User already exists")
    else
      var u := User(newId, name, email, hash(password), now);
      AppendDistinctBy(db.users, u, EmailOf);
      Response(Ok(SessionBody(Public(u), TokenFor(u, sign))), db.(users := db.users + [u]))
  }

  /**
   * POST /api/auth/login: the first user with the email, if the password
   * matches its hash. An unknown email and a wrong password get the same reply.
   */
  function Login(
    db: Db, email: string, password: string,
    compare: (string, string) -> bool, sign: Claims -> string): (r: Response)
    ensures r.db == db
    ensures r.reply.Err? ==> r.reply.error == HttpError(400, "Invalid credentials")
    ensures r.reply.Ok? <==>
      UserByEmail(db.users, email).Some? && compare(password, UserByEmail(db.users, email).value.password)
    ensures r.reply.Ok? ==> var u := UserByEmail(db.users, email).value;
      r.reply.value == SessionBody(Public(u), TokenFor(u, sign))
  {
    match UserByEmail(db.users, email)
    case None => Fail(db, 400, "Invalid credentials")
    case Some(u) =>
      if !compare(password, u.password) then Fail(db, 400, "Invalid credentials")
      else Response(Ok(SessionBody(Public(u), TokenFor(u, sign))), db)
  }

  /** Whoever registers can log straight in with the same email and password. */
  lemma LoginAfterRegister(
    db: Db, name: string, email: string, password: string,
    hash: string -> string, compare: (string, string) -> bool, sign: Claims -> string,
    newId: string, now: int)
    requires compare(password, hash(password))
    requires Register(db, name, email, password, hash, sign, newId, now).reply.Ok?
    ensures var reg := Register(db, name, email, password, hash, sign, newId, now);
      Login(reg.db, email, password, compare, sign).reply == reg.reply
  {
    var u := User(newId, name, email, hash(password), now);
    FindAfterAppendNew(db.users, u, HasEmail(email));
  }

  /** A second registration with the same email is refused and changes nothing. */
  lemma RegisterTwice(
    db: Db, name: string, name2: string, email: string, password: string, password2: string,
    hash: string -> string, sign: Claims -> string, id1: string, id2: string, t1: int, t2: int)
    requires Register(db, name, email, password, hash, sign, id1, t1).reply.Ok?
    requires password2 != ""
    ensures var reg := Register(db, name, email, password, hash, sign, id1, t1);
      Register(reg.db, name2, email, password2, hash, sign, id2, t2) == Fail(reg.db, 400, "User already exists")
  {
    var u := User(id1, name, email, hash(password), t1);
    FindAfterAppendNew(db.users, u, HasEmail(email));
  }
}

=== FILE: server_cart_items.dfy ===
/**
 * The rows of one server-side cart and the three ways the cart routes of
 * server.js rewrite them: merge an added product, set an absolute quantity,
 * and drop a product. Quantities are JavaScript numbers restricted to integers.
 */
module CartItems {
  import opened Results
  import opened Seqs

  /** One row of a server cart, `{ productId, qty }`. */
  datatype CartItem = CartItem(productId: string, qty: int)

  function ProductIdOf(i: CartItem): string
  {
    i.productId
  }

  function IsProduct(pid: string): CartItem -> bool
  {
    (i: CartItem) => i.productId == pid
  }

  function NotProduct(pid: string): CartItem -> bool
  {
    (i: CartItem) => i.productId != pid
  }

  predicate HasPositiveQty(i: CartItem)
  {
    i.qty > 0
  }

  /** Every row holds a positive quantity, as PUT leaves a cart. */
  predicate AllPositive(items: seq<CartItem>)
  {
    forall j :: 0 <= j < |items| ==> items[j].qty > 0
  }

  /** At most one row per product: the invariant the merge rule is meant to keep. */
  predicate DistinctIds(items: seq<CartItem>)
  {
    DistinctBy(items, ProductIdOf)
  }

  /** The row `cart.items.find(i => i.productId === pid)` returns. */
  function ItemIndex(items: seq<CartItem>, pid: string): (r: Option<nat>)
    ensures r.Some? ==> r.value < |items| && items[r.value].productId == pid
    ensures r.Some? ==> forall j :: 0 <= j < r.value ==> items[j].productId != pid
    ensures r.None? <==> forall j :: 0 <= j < |items| ==> items[j].productId != pid
  {
    FindIndex(items, IsProduct(pid))
  }

  /** What one row adds to the quantity held for `pid`. */
  function Contrib(i: CartItem, pid: string): int
  {
    if i.productId == pid then i.qty else 0
  }

  /** Reference measure: the total quantity the cart holds for `pid`, 0 when it has no row. */
  function QtyOf(items: seq<CartItem>, pid: string): int
    decreases |items|
  {
    if |items| == 0 then 0 else Contrib(items[0], pid) + QtyOf(items[1..], pid)
  }

  lemma {:induction false} QtyOfAppend(s: seq<CartItem>, x: CartItem, pid: string)
    ensures QtyOf(s + [x], pid) == QtyOf(s, pid) + Contrib(x, pid)
    decreases |s|
  {
    if |s| == 0 {
      assert s + [x] == [x];
    } else {
      assert (s + [x])[1..] == s[1..] + [x];
      QtyOfAppend(s[1..], x, pid);
    }
  }

  lemma {:induction false} QtyOfUpdate(s: seq<CartItem>, k: nat, x: CartItem, pid: string)
    requires k < |s|
    ensures QtyOf(s[k := x], pid) == QtyOf(s, pid) - Contrib(s[k], pid) + Contrib(x, pid)
    decreases k
  {
    if k > 0 {
      assert s[k := x][1..] == s[1..][k - 1 := x];
      QtyOfUpdate(s[1..], k - 1, x, pid);
    } else {
      assert s[k := x][1..] == s[1..];
    }
  }

  lemma {:induction false} QtyOfAbsent(s: seq<CartItem>, pid: string)
    requires forall j :: 0 <= j < |s| ==> s[j].productId != pid
    ensures QtyOf(s, pid) == 0
    decreases |s|
  {
    if |s| > 0 {
      QtyOfAbsent(s[1..], pid);
    }
  }

  /** With distinct ids, the quantity held for a product is the quantity of its one row. */
  lemma {:induction false} QtyOfDistinct(s: seq<CartItem>, k: nat)
    requires DistinctIds(s) && k < |s|
    ensures QtyOf(s, s[k].productId) == s[k].qty
    decreases |s|
  {
    var pid := s[k].productId;
    if k == 0 {
      forall j | 0 <= j < |s[1..]|
        ensures s[1..][j].productId != pid
      {
        assert ProductIdOf(s[0]) != ProductIdOf(s[j + 1]);
      }
      QtyOfAbsent(s[1..], pid);
    } else {
      assert ProductIdOf(s[0]) != ProductIdOf(s[k]);
      assert DistinctIds(s[1..]) by {
        forall i, j | 0 <= i < j < |s[1..]|
          ensures ProductIdOf(s[1..][i]) != ProductIdOf(s[1..][j])
        {
          assert ProductIdOf(s[i + 1]) != ProductIdOf(s[j + 1]);
        }
      }
      QtyOfDistinct(s[1..], k - 1);
    }
  }

  /**
   * POST /api/cart on the rows: the first row for `pid` gets `(qty || 0) + n`,
   * and when there is none a row `{ productId: pid, qty: n }` is appended.
   */
  function MergeAdd(items: seq<CartItem>, pid: string, n: int): (r: seq<CartItem>)
    ensures ItemIndex(items, pid).Some? ==> |r| == |items|
    ensures ItemIndex(items, pid).None? ==> |r| == |items| + 1 && r[|items|] == CartItem(pid, n)
    ensures forall j :: 0 <= j < |items| && items[j].productId != pid ==> r[j] == items[j]
    ensures QtyOf(r, pid) == QtyOf(items, pid) + n
    ensures ItemIndex(r, pid).Some?
    ensures DistinctIds(items) ==> DistinctIds(r)
  {
    match ItemIndex(items, pid)
    case Some(k) =>
      // `(item.qty || 0)` is the stored number itself: 0 || 0 is 0
      var row := items[k].(qty := items[k].qty + n);
      QtyOfUpdate(items, k, row, pid);
      UpdateDistinctBy(items, k, row, ProductIdOf);
      assert items[k := row][k] == row;
      items[k := row]
    case None =>
      var row := CartItem(pid, n);
      QtyOfAppend(items, row, pid);
      AppendDistinctBy(items, row, ProductIdOf);
      assert (items + [row])[|items|] == row;
      items + [row]
  }

  /** Merging leaves every other product's quantity alone. */
  lemma MergeAddOthers(items: seq<CartItem>, pid: string, n: int, p: string)
    requires p != pid
    ensures QtyOf(MergeAdd(items, pid, n), p) == QtyOf(items, p)
  {
    match ItemIndex(items, pid)
    case Some(k) =>
      QtyOfUpdate(items, k, items[k].(qty := items[k].qty + n), p);
    case None =>
      QtyOfAppend(items, CartItem(pid, n), p);
  }

  /** Repeated adds of one product, in order, each with its own `Number(qty) || 1`. */
  function AddAll(items: seq<CartItem>, pid: string, ns: seq<int>): seq<CartItem>
    decreases |ns|
  {
    if |ns| == 0 then items else AddAll(MergeAdd(items, pid, ns[0]), pid, ns[1..])
  }

  function Sum(ns: seq<int>): int
    decreases |ns|
  {
    if |ns| == 0 then 0 else ns[0] + Sum(ns[1..])
  }

  /** A run of adds for one product sums their quantities into its single row. */
  lemma {:induction false} AddAllSums(items: seq<CartItem>, pid: string, ns: seq<int>)
    requires DistinctIds(items)
    ensures QtyOf(AddAll(items, pid, ns), pid) == QtyOf(items, pid) + Sum(ns)
    ensures DistinctIds(AddAll(items, pid, ns))
    ensures |ns| > 0 ==> ItemIndex(AddAll(items, pid, ns), pid).Some?
    decreases |ns|
  {
    if |ns| > 0 {
      var next := MergeAdd(items, pid, ns[0]);
      AddAllSums(next, pid, ns[1..]);
      if |ns| > 1 {
        assert ItemIndex(AddAll(next, pid, ns[1..]), pid).Some?;
      } else {
        assert AddAll(next, pid, ns[1..]) == next;
      }
    }
  }

  /** PUT /api/cart on the rows; `None` when no row has `pid` (the route's 404). */
  function SetQty(items: seq<CartItem>, pid: string, q: int): (r: Option<seq<CartItem>>)
    ensures r.None? <==> ItemIndex(items, pid).None?
    ensures r.Some? ==> forall j :: 0 <= j < |r.value| ==> r.value[j].qty > 0
    ensures r.Some? ==> forall j :: 0 <= j < |r.value| ==> r.value[j] in items || r.value[j] == CartItem(pid, q)
    ensures r.Some? ==> |r.value| <= |items|
    ensures r.Some? && q > 0 ==> CartItem(pid, q) in r.value
    ensures r.Some? ==> Drop(r.value, pid) == Filter(Drop(items, pid), HasPositiveQty)
  {
    match ItemIndex(items, pid)
    case None => None
    case Some(k) =>
      var row := items[k].(qty := q);
      var updated := items[k := row];
      var kept := Filter(updated, HasPositiveQty);
      assert forall j :: 0 <= j < |kept| ==> kept[j] in updated;
      assert updated[k] == row;
      DropUpdateSame(items, k, row, pid);
      DropFilterPositive(updated, pid);
      Some(kept)
  }

  /**
   * On rows that were all positive, as PUT leaves a cart, PUT changes the row in
   * place when the new quantity is positive, and otherwise splices it out with
   * the other rows kept in order.
   */
  lemma SetQtyInPlace(items: seq<CartItem>, pid: string, q: int)
    requires ItemIndex(items, pid).Some?
    ensures var k := ItemIndex(items, pid).value;
      AllPositive(items) && q > 0 ==> SetQty(items, pid, q).value == items[k := CartItem(pid, q)]
    ensures var k := ItemIndex(items, pid).value;
      AllPositive(items) && q <= 0 ==> SetQty(items, pid, q).value == items[..k] + items[k + 1..]
  {
    var k := ItemIndex(items, pid).value;
    var row := items[k].(qty := q);
    var u := items[k := row];
    assert SetQty(items, pid, q).value == Filter(u, HasPositiveQty);
    if !AllPositive(items) {
    } else if q > 0 {
      FilterKeepsAll(u, HasPositiveQty);
    } else {
      var a, b := items[..k], items[k + 1..];
      assert u == a + [row] + b;
      FilterConcat(a + [row], b, HasPositiveQty);
      FilterConcat(a, [row], HasPositiveQty);
      FilterKeepsAll(a, HasPositiveQty);
      FilterKeepsAll(b, HasPositiveQty);
      assert Filter([row], HasPositiveQty) == [] + Filter([row][1..], HasPositiveQty);
      assert a + [] == a;
    }
  }

  /** With distinct ids, after PUT the product has a row exactly when `q > 0`, holding `q`. */
  lemma SetQtyRow(items: seq<CartItem>, pid: string, q: int)
    requires DistinctIds(items) && ItemIndex(items, pid).Some?
    ensures SetQty(items, pid, q).Some?
    ensures ItemIndex(SetQty(items, pid, q).value, pid).Some? <==> q > 0
    ensures QtyOf(SetQty(items, pid, q).value, pid) == (if q > 0 then q else 0)
    ensures DistinctIds(SetQty(items, pid, q).value)
  {
    var k := ItemIndex(items, pid).value;
    var row := items[k].(qty := q);
    var updated := items[k := row];
    var r := SetQty(items, pid, q).value;
    assert r == Filter(updated, HasPositiveQty);
    UpdateDistinctBy(items, k, row, ProductIdOf);
    FilterDistinctBy(updated, HasPositiveQty, ProductIdOf);
    forall j | 0 <= j < |updated| && j != k
      ensures updated[j].productId != pid
    {
      assert ProductIdOf(items[j]) != ProductIdOf(items[k]);
    }
    if q > 0 {
      assert updated[k] == row;
      assert row in r;
      var m :| 0 <= m < |r| && r[m] == row;
      QtyOfDistinct(r, m);
    } else {
      forall j | 0 <= j < |r|
        ensures r[j].productId != pid
      {
        assert r[j] in updated && r[j].qty > 0;
      }
      QtyOfAbsent(r, pid);
    }
  }

  /** DELETE /api/cart/:productId on the rows: keep exactly the rows of other products, in order. */
  function Drop(items: seq<CartItem>, pid: string): (r: seq<CartItem>)
    ensures forall j :: 0 <= j < |r| ==> r[j].productId != pid && r[j] in items
    ensures forall j :: 0 <= j < |items| && items[j].productId != pid ==> items[j] in r
  {
    Filter(items, NotProduct(pid))
  }

  /** Dropping from two runs of rows drops from each: the kept rows keep their order. */
  lemma DropConcat(a: seq<CartItem>, b: seq<CartItem>, pid: string)
    ensures Drop(a + b, pid) == Drop(a, pid) + Drop(b, pid)
  {
    FilterConcat(a, b, NotProduct(pid));
  }

  /** A single row is kept, once, exactly when it belongs to another product. */
  lemma DropSingle(x: CartItem, pid: string)
    ensures Drop([x], pid) == if x.productId != pid then [x] else []
  {
    assert [x][1..] == [];
  }

  /** Dropping a product zeroes its quantity and leaves every other product's alone. */
  lemma {:induction false} QtyOfDrop(items: seq<CartItem>, pid: string, p: string)
    ensures QtyOf(Drop(items, pid), p) == if p == pid then 0 else QtyOf(items, p)
    decreases |items|
  {
    if |items| > 0 {
      QtyOfDrop(items[1..], pid, p);
      var head := if items[0].productId != pid then [items[0]] else [];
      assert Drop(items, pid) == head + Drop(items[1..], pid);
      if items[0].productId != pid {
        assert (head + Drop(items[1..], pid))[1..] == Drop(items[1..], pid);
      } else {
        assert head + Drop(items[1..], pid) == Drop(items[1..], pid);
      }
    }
  }

  /** Deleting twice is deleting once. */
  lemma DropIdempotent(items: seq<CartItem>, pid: string)
    ensures Drop(Drop(items, pid), pid) == Drop(items, pid)
  {
    FilterIdempotent(items, NotProduct(pid));
  }

  /** Deleting a product the cart does not hold leaves the rows unchanged. */
  lemma DropAbsent(items: seq<CartItem>, pid: string)
    requires ItemIndex(items, pid).None?
    ensures Drop(items, pid) == items
  {
    FilterKeepsAll(items, NotProduct(pid));
  }

  lemma DropDistinct(items: seq<CartItem>, pid: string)
    requires DistinctIds(items)
    ensures DistinctIds(Drop(items, pid))
  {
    FilterDistinctBy(items, NotProduct(pid), ProductIdOf);
  }

  /** Replacing a row of `pid` by another row of `pid` is invisible once `pid` is dropped. */
  lemma {:induction false} DropUpdateSame(items: seq<CartItem>, k: nat, x: CartItem, pid: string)
    requires k < |items| && items[k].productId == pid && x.productId == pid
    ensures Drop(items[k := x], pid) == Drop(items, pid)
    decreases k
  {
    var u := items[k := x];
    if k == 0 {
      assert u[1..] == items[1..];
      assert Drop(u, pid) == Drop(u[1..], pid);
      assert Drop(items, pid) == Drop(items[1..], pid);
    } else {
      assert u[1..] == items[1..][k - 1 := x];
      DropUpdateSame(items[1..], k - 1, x, pid);
      assert u[0] == items[0];
    }
  }

  /** Adding a product and then deleting it restores the other rows exactly. */
  lemma DropAfterMergeAdd(items: seq<CartItem>, pid: string, n: int)
    ensures Drop(MergeAdd(items, pid, n), pid) == Drop(items, pid)
  {
    var found := ItemIndex(items, pid);
    if found.Some? {
      var k := found.value;
      var row := items[k].(qty := items[k].qty + n);
      assert MergeAdd(items, pid, n) == items[k := row];
      DropUpdateSame(items, k, row, pid);
    } else {
      var row := CartItem(pid, n);
      assert MergeAdd(items, pid, n) == items + [row];
      FilterConcat(items, [row], NotProduct(pid));
      assert Filter([row], NotProduct(pid)) == [] + Filter([row][1..], NotProduct(pid));
      assert items + [] == items;
    }
  }

  /**
   * PUT keeps every other product's rows in order, less those that were not
   * positive (a negative row a POST merged in goes too); a cart whose rows were
   * all positive, as PUT leaves it, keeps every other product's rows exactly.
   */
  lemma SetQtyOthers(items: seq<CartItem>, pid: string, q: int)
    requires ItemIndex(items, pid).Some?
    ensures Drop(SetQty(items, pid, q).value, pid) == Filter(Drop(items, pid), HasPositiveQty)
    ensures (forall j :: 0 <= j < |items| ==> items[j].qty > 0) ==>
      Drop(SetQty(items, pid, q).value, pid) == Drop(items, pid)
  {
    if forall j :: 0 <= j < |items| ==> items[j].qty > 0 {
      var d := Drop(items, pid);
      assert forall j :: 0 <= j < |d| ==> d[j] in items;
      FilterKeepsAll(d, HasPositiveQty);
    }
  }

  /** Dropping a product commutes with dropping non-positive rows. */
  lemma {:induction false} DropFilterPositive(items: seq<CartItem>, pid: string)
    ensures Drop(Filter(items, HasPositiveQty), pid) == Filter(Drop(items, pid), HasPositiveQty)
    decreases |items|
  {
    if |items| > 0 {
      DropFilterPositive(items[1..], pid);
      var x := items[0];
      var pos := if x.qty > 0 then [x] else [];
      var oth := if x.productId != pid then [x] else [];
      assert Filter(items, HasPositiveQty) == pos + Filter(items[1..], HasPositiveQty);
      FilterConcat(pos, Filter(items[1..], HasPositiveQty), NotProduct(pid));
      assert Drop(items, pid) == oth + Drop(items[1..], pid);
      FilterConcat(oth, Drop(items[1..], pid), HasPositiveQty);
      if x.qty > 0 && x.productId != pid {
        assert Filter(pos, NotProduct(pid)) == [x];
        assert Filter(oth, HasPositiveQty) == [x];
      } else {
        assert Filter(pos, NotProduct(pid)) == [];
        assert Filter(oth, HasPositiveQty) == [];
      }
    }
  }
}

=== FILE: server_db.dfy ===
/**
 * The records server.js keeps in its JSON file (`users`, `products`, `carts`,
 * `orders`, `shipping`) as one immutable value, and the replies its routes send.
 * Reading and writing the file is not modelled: a route takes the dataset and
 * returns the dataset it would write back.
 */
module ServerDb {
  import opened Results
  import opened Seqs
  import opened CartItems

  /** A registered account; `password` holds the bcrypt hash, never the plaintext. */
  datatype User = User(id: string, name: string, email: string, password: string, createdAt: int)

  /** The part of a user a route sends back. */
  datatype PublicUser = PublicUser(id: string, name: string, email: string)

  datatype Product = Product(id: string, title: string, price: real, description: string, image: string)

  datatype Cart = Cart(userId: string, items: seq<CartItem>)

  /**
   * A placed order. `shipping` and `payment` are the request's payloads, kept
   * opaque; an absent payload is stored as the empty object `{}`.
   */
  datatype Order = Order(
    id: string,
    userId: string,
    items: seq<CartItem>,
    shipping: string,
    payment: string,
    status: string,
    createdAt: int)

  datatype ShippingOption = ShippingOption(code: string, name: string, flag: string, cost: real)

  datatype Db = Db(
    users: seq<User>,
    products: seq<Product>,
    carts: seq<Cart>,
    orders: seq<Order>,
    shipping: seq<ShippingOption>)

  /** A `res.status(status).json({ error: message })` reply. */
  datatype HttpError = HttpError(status: int, message: string)

  /** The JSON bodies of the successful replies. */
  datatype Body =
    | CartBody(cart: Cart)
    | OrderBody(order: Order)
    | OrderList(orders: seq<Order>)
    | SessionBody(user: PublicUser, token: string)
    | ProductBody(product: Product)
    | ProductList(products: seq<Product>)

  /** What a route answers, and the dataset as it stands afterwards. */
  datatype Response = Response(reply: Result<Body, HttpError>, db: Db)

  function Fail(db: Db, status: int, message: string): Response
  {
    Response(Err(HttpError(status, message)), db)
  }

  function UserIdOf(c: Cart): string
  {
    c.userId
  }

  function OwnedBy(uid: string): Cart -> bool
  {
    (c: Cart) => c.userId == uid
  }

  function NotOwnedBy(uid: string): Cart -> bool
  {
    (c: Cart) => c.userId != uid
  }

  /** Position of `db.carts.find(c => c.userId === uid)`. */
  function CartIndex(carts: seq<Cart>, uid: string): (r: Option<nat>)
    ensures r.Some? ==> r.value < |carts| && carts[r.value].userId == uid
    ensures r.Some? ==> forall j :: 0 <= j < r.value ==> carts[j].userId != uid
    ensures r.None? <==> forall j :: 0 <= j < |carts| ==> carts[j].userId != uid
  {
    FindIndex(carts, OwnedBy(uid))
  }

  /** The cart the routes treat as the user's: the first one stored for them. */
  function CartOf(db: Db, uid: string): (r: Option<Cart>)
    ensures r.Some? ==> r.value in db.carts && r.value.userId == uid
    ensures r.None? <==> CartIndex(db.carts, uid).None?
  {
    Find(db.carts, OwnedBy(uid))
  }

  lemma CartOfAtIndex(db: Db, uid: string)
    ensures CartIndex(db.carts, uid).Some? ==> CartOf(db, uid) == Some(db.carts[CartIndex(db.carts, uid).value])
  {
    FindAtIndex(db.carts, OwnedBy(uid));
  }

  /** The rows the user's cart holds; none when the user has no cart yet. */
  function ItemsOf(db: Db, uid: string): seq<CartItem>
  {
    match CartOf(db, uid)
    case None => []
    case Some(c) => c.items
  }

  function EmailOf(u: User): string
  {
    u.email
  }

  /**
   * The shape the routes keep when they start from it: one cart per user, one
   * row per product in each cart, one account per email.
   */
  predicate WellFormed(db: Db)
  {
    && DistinctBy(db.carts, UserIdOf)
    && (forall i :: 0 <= i < |db.carts| ==> DistinctIds(db.carts[i].items))
    && DistinctBy(db.users, EmailOf)
  }
}

=== FILE: server_routes.dfy ===
/**
 * The cart, order and catalog routes of server.js. Each route is a function of
 * the dataset and the request (for the routes behind the bearer check, of the
 * caller's user id too) to a reply and the dataset written back. Fresh ids
 * (`randomUUID()`) and timestamps (`Date.now()`) are parameters.
 */
module ServerRoutes {
  import opened Results
  import opened Seqs
  import opened Js
  import opened CartItems
  import opened ServerDb

  /** Every user other than `uid` finds exactly the cart they had. */
  ghost predicate OthersUntouched(before: Db, after: Db, uid: string)
  {
    forall u :: u != uid ==> CartOf(after, u) == CartOf(before, u)
  }

  /** The tables the cart routes never touch are as they were. */
  predicate SameAccountsAndCatalog(before: Db, after: Db)
  {
    after.users == before.users && after.products == before.products && after.shipping == before.shipping
  }

  /** Rewrite the user's own (first) cart in place. */
  function ReplaceCart(db: Db, k: nat, c: Cart): (r: Db)
    requires CartIndex(db.carts, c.userId) == Some(k)
    ensures CartOf(r, c.userId) == Some(c)
    ensures OthersUntouched(db, r, c.userId)
    ensures SameAccountsAndCatalog(db, r) && r.orders == db.orders
  {
    var r := db.(carts := db.carts[k := c]);
    assert CartIndex(r.carts, c.userId) == Some(k) by {
      assert r.carts[k].userId == c.userId;
      assert forall j :: 0 <= j < k ==> r.carts[j] == db.carts[j];
    }
    CartOfAtIndex(r, c.userId);
    ReplaceCartOthers(db, k, c);
    r
  }

  lemma ReplaceCartOthers(db: Db, k: nat, c: Cart)
    requires k < |db.carts| && db.carts[k].userId == c.userId
    ensures OthersUntouched(db, db.(carts := db.carts[k := c]), c.userId)
  {
    forall u | u != c.userId
      ensures CartOf(db.(carts := db.carts[k := c]), u) == CartOf(db, u)
    {
      FindAfterUpdate(db.carts, k, c, OwnedBy(u));
    }
  }

  /** Store the first cart of a user who had none. */
  function AppendCart(db: Db, c: Cart): (r: Db)
    requires CartOf(db, c.userId).None?
    ensures CartOf(r, c.userId) == Some(c)
    ensures OthersUntouched(db, r, c.userId)
    ensures SameAccountsAndCatalog(db, r) && r.orders == db.orders
    ensures |r.carts| == |db.carts| + 1
  {
    FindAfterAppendNew(db.carts, c, OwnedBy(c.userId));
    AppendCartOthers(db, c);
    db.(carts := db.carts + [c])
  }

  lemma AppendCartOthers(db: Db, c: Cart)
    ensures OthersUntouched(db, db.(carts := db.carts + [c]), c.userId)
  {
    forall u | u != c.userId
      ensures CartOf(db.(carts := db.carts + [c]), u) == CartOf(db, u)
    {
      FindAfterAppend(db.carts, c, OwnedBy(u));
    }
  }

  /** GET /api/cart: the caller's cart, or an unsaved empty one; nothing is written. */
  function GetCart(db: Db, uid: string): (r: Response)
    ensures r.db == db
    ensures r.reply.Ok? && r.reply.value.CartBody?
    ensures r.reply.value.cart.userId == uid
    ensures r.reply.value.cart.items == ItemsOf(db, uid)
    ensures CartOf(db, uid).None? ==> r.reply.value.cart.items == []
  {
    match CartOf(db, uid)
    case Some(c) => Response(Ok(CartBody(c)), db)
    case None => Response(Ok(CartBody(Cart(uid, []))), db)
  }

  /**
   * POST /api/cart: add `Number(qty) || 1` of `productId`, merging into the
   * product's row; the cart is created on first use. A negative quantity is
   * accepted as it comes.
   */
  function PostCart(db: Db, uid: string, productId: string, qty: Option<int>): (r: Response)
    ensures r.reply.Err? <==> productId == ""
    ensures r.reply.Err? ==> r == Fail(db, 400, "Missing productId")
    ensures r.reply.Ok? ==> r.reply.value.CartBody? && CartOf(r.db, uid) == Some(r.reply.value.cart)
    ensures r.reply.Ok? ==> ItemsOf(r.db, uid) == MergeAdd(ItemsOf(db, uid), productId, NumberOr(qty, 1))
    ensures r.reply.Ok? ==>
      QtyOf(ItemsOf(r.db, uid), productId) == QtyOf(ItemsOf(db, uid), productId) + NumberOr(qty, 1)
    ensures r.reply.Ok? && CartOf(db, uid).None? ==> |r.db.carts| == |db.carts| + 1
    ensures r.reply.Ok? && CartOf(db, uid).Some? ==> |r.db.carts| == |db.carts|
    ensures OthersUntouched(db, r.db, uid)
    ensures SameAccountsAndCatalog(db, r.db) && r.db.orders == db.orders
  {
    if productId == "" then Fail(db, 400, "Missing productId")
    else
      var n := NumberOr(qty, 1);
      match CartIndex(db.carts, uid)
      case Some(k) =>
        CartOfAtIndex(db, uid);
        var c := db.carts[k].(items := MergeAdd(db.carts[k].items, productId, n));
        var after := ReplaceCart(db, k, c);
        Response(Ok(CartBody(c)), after)
      case None =>
        var c := Cart(uid, MergeAdd([], productId, n));
        var after := AppendCart(db, c);
        Response(Ok(CartBody(c)), after)
  }

  /**
   * PUT /api/cart: set the product's row to `Number(qty) || 0`, then drop every
   * row of the cart whose quantity is not positive.
   */
  function PutCart(db: Db, uid: string, productId: string, qty: Option<int>): (r: Response)
    ensures CartOf(db, uid).None? ==> r == Fail(db, 404, "Cart not found")
    ensures CartOf(db, uid).Some? && ItemIndex(ItemsOf(db, uid), productId).None? ==>
      r == Fail(db, 404, "Item not found")
    ensures r.reply.Ok? <==> ItemIndex(ItemsOf(db, uid), productId).Some?
    ensures r.reply.Ok? ==> r.reply.value.CartBody? && CartOf(r.db, uid) == Some(r.reply.value.cart)
    ensures r.reply.Ok? ==> ItemsOf(r.db, uid) == SetQty(ItemsOf(db, uid), productId, NumberOr(qty, 0)).value
    ensures r.reply.Ok? ==> forall j :: 0 <= j < |ItemsOf(r.db, uid)| ==> ItemsOf(r.db, uid)[j].qty > 0
    ensures OthersUntouched(db, r.db, uid)
    ensures SameAccountsAndCatalog(db, r.db) && r.db.orders == db.orders
  {
    match CartIndex(db.carts, uid)
    case None => Fail(db, 404, "Cart not found")
    case Some(k) =>
      CartOfAtIndex(db, uid);
      match SetQty(db.carts[k].items, productId, NumberOr(qty, 0))
      case None => Fail(db, 404, "Item not found")
      case Some(items) =>
        var c := db.carts[k].(items := items);
        Response(Ok(CartBody(c)), ReplaceCart(db, k, c))
  }

  /** DELETE /api/cart/:productId: keep the rows of every other product. */
  function DeleteCart(db: Db, uid: string, productId: string): (r: Response)
    ensures r.reply.Err? <==> CartOf(db, uid).None?
    ensures r.reply.Err? ==> r == Fail(db, 404, "Cart not found")
    ensures r.reply.Ok? ==> r.reply.value.CartBody? && CartOf(r.db, uid) == Some(r.reply.value.cart)
    ensures r.reply.Ok? ==> ItemsOf(r.db, uid) == Drop(ItemsOf(db, uid), productId)
    ensures r.reply.Ok? ==> ItemIndex(ItemsOf(r.db, uid), productId).None?
    ensures OthersUntouched(db, r.db, uid)
    ensures SameAccountsAndCatalog(db, r.db) && r.db.orders == db.orders
  {
    match CartIndex(db.carts, uid)
    case None => Fail(db, 404, "Cart not found")
    case Some(k) =>
      CartOfAtIndex(db, uid);
      var c := db.carts[k].(items := Drop(db.carts[k].items, productId));
      Response(Ok(CartBody(c)), ReplaceCart(db, k, c))
  }

  function OrderedBy(uid: string): Order -> bool
  {
    (o: Order) => o.userId == uid
  }

  /**
   * POST /api/orders: one new order holding the caller's cart rows (none when
   * there is no cart; an empty cart is not refused), and every cart of the
   * caller removed.
   */
  function PlaceOrder(db: Db, uid: string, orderId: string, now: int, shipping: string, payment: string): (r: Response)
    ensures r.reply.Ok? && r.reply.value.OrderBody?
    ensures var o := r.reply.value.order;
      && o.id == orderId && o.userId == uid && o.createdAt == now
      && o.items == ItemsOf(db, uid) && o.status == "created"
      && (shipping != "" ==> o.shipping == shipping) && (shipping == "" ==> o.shipping == "{}")
      && (payment != "" ==> o.payment == payment) && (payment == "" ==> o.payment == "{}")
    ensures r.db.orders == db.orders + [r.reply.value.order]
    ensures CartOf(r.db, uid).None?
    ensures OthersUntouched(db, r.db, uid)
    ensures SameAccountsAndCatalog(db, r.db)
  {
    var o := Order(orderId, uid, ItemsOf(db, uid), StrOr(shipping, "{}"), StrOr(payment, "{}"), "created", now);
    var after := db.(orders := db.orders + [o], carts := Filter(db.carts, NotOwnedBy(uid)));
    PlaceOrderOthers(db, uid, after);
    Response(Ok(OrderBody(o)), after)
  }

  lemma PlaceOrderOthers(db: Db, uid: string, after: Db)
    requires after.carts == Filter(db.carts, NotOwnedBy(uid))
    ensures OthersUntouched(db, after, uid)
    ensures CartOf(after, uid).None?
  {
    forall u | u != uid
      ensures CartOf(after, u) == CartOf(db, u)
    {
      FindAfterFilter(db.carts, NotOwnedBy(uid), OwnedBy(u));
    }
  }

  /** GET /api/orders: the caller's orders. */
  function ListOrders(db: Db, uid: string): (r: Response)
    ensures r.db == db && r.reply.Ok? && r.reply.value.OrderList?
    ensures var os := r.reply.value.orders;
      forall j :: 0 <= j < |os| ==> os[j].userId == uid && os[j] in db.orders
    ensures var os := r.reply.value.orders;
      forall j :: 0 <= j < |db.orders| && db.orders[j].userId == uid ==> db.orders[j] in os
  {
    Response(Ok(OrderList(Filter(db.orders, OrderedBy(uid)))), db)
  }

  /** Listing from two runs of orders lists from each: the caller's orders keep their stored order. */
  lemma ListOrdersConcat(db: Db, a: seq<Order>, b: seq<Order>, uid: string)
    ensures ListOrders(db.(orders := a + b), uid).reply.value.orders ==
      ListOrders(db.(orders := a), uid).reply.value.orders + ListOrders(db.(orders := b), uid).reply.value.orders
  {
    FilterConcat(a, b, OrderedBy(uid));
  }

  /** A single stored order is listed, once, exactly when it is the caller's. */
  lemma ListOrdersSingle(db: Db, o: Order, uid: string)
    ensures ListOrders(db.(orders := [o]), uid).reply.value.orders == if o.userId == uid then [o] else []
  {
    assert [o][1..] == [];
  }

  /** Placing an order adds it at the end of the caller's list and to nobody else's. */
  lemma ListOrdersAfterPlace(db: Db, uid: string, orderId: string, now: int, shipping: string, payment: string, u: string)
    ensures var placed := PlaceOrder(db, uid, orderId, now, shipping, payment);
      ListOrders(placed.db, u).reply.value.orders ==
        ListOrders(db, u).reply.value.orders + (if u == uid then [placed.reply.value.order] else [])
  {
    var placed := PlaceOrder(db, uid, orderId, now, shipping, payment);
    var o := placed.reply.value.order;
    FilterConcat(db.orders, [o], OrderedBy(u));
    assert Filter([o], OrderedBy(u)) == (if u == uid then [o] else []) + Filter([o][1..], OrderedBy(u));
  }

  /** Right after an order the caller's cart reads empty, and a second order is placed with no rows. */
  lemma PlaceOrderTwice(db: Db, uid: string, id1: string, id2: string, t1: int, t2: int, s: string, p: string)
    ensures var first := PlaceOrder(db, uid, id1, t1, s, p);
      && GetCart(first.db, uid).reply.value.cart.items == []
      && PlaceOrder(first.db, uid, id2, t2, s, p).reply.value.order.items == []
  {
  }

  /** Deleting a product twice leaves the same dataset as deleting it once. */
  lemma DeleteCartIdempotent(db: Db, uid: string, productId: string)
    ensures var once := DeleteCart(db, uid, productId);
      DeleteCart(once.db, uid, productId) == once
  {
    if CartIndex(db.carts, uid).None? {
      return;
    }
    var k := CartIndex(db.carts, uid).value;
    CartOfAtIndex(db, uid);
    var once := DeleteCart(db, uid, productId);
    var c := db.carts[k].(items := Drop(db.carts[k].items, productId));
    assert once.db == db.(carts := db.carts[k := c]);
    assert CartIndex(once.db.carts, uid) == Some(k) by {
      assert once.db.carts[k].userId == uid;
      assert forall j :: 0 <= j < k ==> once.db.carts[j] == db.carts[j];
    }
    DropIdempotent(db.carts[k].items, productId);
    assert once.db.carts[k := c] == once.db.carts;
  }

  /** Adding a product and then deleting it leaves the caller's other rows as they were. */
  lemma DeleteAfterPost(db: Db, uid: string, productId: string, qty: Option<int>)
    requires productId != ""
    ensures var added := PostCart(db, uid, productId, qty);
      ItemsOf(DeleteCart(added.db, uid, productId).db, uid) == Drop(ItemsOf(db, uid), productId)
  {
    DropAfterMergeAdd(ItemsOf(db, uid), productId, NumberOr(qty, 1));
  }

  /** GET /api/products: the stored catalog in stored order; nothing is written. */
  function ListProducts(db: Db): (r: Response)
    ensures r.db == db && r.reply.Ok? && r.reply.value.ProductList?
    ensures r.reply.value.products == db.products
  {
    Response(Ok(ProductList(db.products)), db)
  }

  function HasProductId(id: string): Product -> bool
  {
    (p: Product) => p.id == id
  }

  /** GET /api/products/:id: the first product with that id, or 404. */
  function GetProduct(db: Db, id: string): (r: Response)
    ensures r.db == db
    ensures r.reply.Err? <==> forall j :: 0 <= j < |db.products| ==> db.products[j].id != id
    ensures r.reply.Err? ==> r.reply.error == HttpError(404, "Not found")
    ensures r.reply.Ok? ==> r.reply.value.ProductBody?
    ensures r.reply.Ok? ==> r.reply.value.product in db.products && r.reply.value.product.id == id
  {
    match Find(db.products, HasProductId(id))
    case None => Fail(db, 404, "Not found")
    case Some(p) => Response(Ok(ProductBody(p)), db)
  }

  /**
   * POST /api/products: `!title || !price` is refused; otherwise the product is
   * appended with a fresh id. The price is not checked for sign.
   */
  function CreateProduct(db: Db, title: string, price: Option<real>, description: string, image: string, newId: string): (r: Response)
    ensures r.reply.Err? <==> title == "" || price.None? || price.value == 0.0
    ensures r.reply.Err? ==> r == Fail(db, 400, "Missing title or price")
    ensures r.reply.Ok? ==> r.reply == Ok(ProductBody(Product(newId, title, price.value, description, image)))
    ensures r.reply.Ok? ==> r.db.products == db.products + [r.reply.value.product]
    ensures r.db.users == db.users && r.db.carts == db.carts && r.db.orders == db.orders
    ensures r.db.shipping == db.shipping
  {
    if title == "" || price.None? || price.value == 0.0 then Fail(db, 400, "Missing title or price")
    else
      var p := Product(newId, title, price.value, description, image);
      Response(Ok(ProductBody(p)), db.(products := db.products + [p]))
  }

  /** A product created under a fresh id is the one the lookup by that id finds. */
  lemma GetProductAfterCreate(db: Db, title: string, price: Option<real>, description: string, image: string, newId: string)
    requires forall j :: 0 <= j < |db.products| ==> db.products[j].id != newId
    requires CreateProduct(db, title, price, description, image, newId).reply.Ok?
    ensures var created := CreateProduct(db, title, price, description, image, newId);
      && GetProduct(created.db, newId).reply == Ok(ProductBody(created.reply.value.product))
      && ListProducts(created.db).reply.value.products == db.products + [created.reply.value.product]
  {
    var created := CreateProduct(db, title, price, description, image, newId);
    assert Find(db.products, HasProductId(newId)).None?;
    FindAfterAppendNew(db.products, created.reply.value.product, HasProductId(newId));
  }
}

=== FILE: storefront.dfy ===
/**
 * Small rules of the storefront page in public/main.js: the language label
 * that cycles on click, the deals countdown, and the id an "Add" button gives
 * a product tile.
 */
module Storefront {
  import opened Text

  /** The labels the language switch steps through, in order. */
  const LangOptions: seq<string> := [
    "English, USD",
    "English, GBP",
    "中文, CNY",
    "اردو, PKR"
  ]

  /** No label appears twice in the list. */
  predicate Distinct(opts: seq<string>)
  {
    forall i, j :: 0 <= i < j < |opts| ==> opts[i] != opts[j]
  }

  lemma LangOptionsDistinct()
    ensures Distinct(LangOptions)
  {
    assert LangOptions[0][9] != LangOptions[1][9];
    assert LangOptions[0][0] != LangOptions[2][0] && LangOptions[0][0] != LangOptions[3][0];
    assert LangOptions[1][0] != LangOptions[2][0] && LangOptions[1][0] != LangOptions[3][0];
    assert LangOptions[2][0] != LangOptions[3][0];
  }

  /** `Array.prototype.indexOf`: the first position holding `x`, or -1. */
  function IndexOf(s: seq<string>, x: string): (r: int)
    ensures -1 <= r < |s|
    ensures r == -1 <==> x !in s
    ensures r >= 0 ==> s[r] == x && forall j :: 0 <= j < r ==> s[j] != x
    decreases |s|
  {
    if |s| == 0 then -1
    else if s[0] == x then 0
    else
      var rest := IndexOf(s[1..], x);
      if rest == -1 then -1 else rest + 1
  }

  /**
   * A click on a label that cycles through four options: the option after the
   * current one, wrapping round; a label that is not an option gives the first.
   */
  function Step(opts: seq<string>, cur: string): (r: string)
    requires |opts| == 4
    ensures r in opts
    ensures cur !in opts ==> r == opts[0]
    ensures Distinct(opts) && cur in opts ==> r != cur
  {
    opts[(IndexOf(opts, cur) + 1) % 4]
  }

  /** The language switch: a label that is not one of the options is followed by the first option. */
  function NextLang(cur: string): (r: string)
    ensures r in LangOptions
    ensures cur !in LangOptions ==> r == LangOptions[0]
    ensures cur in LangOptions ==> r != cur
  {
    LangOptionsDistinct();
    Step(LangOptions, cur)
  }

  /** The label after `n` clicks. */
  function Clicks(opts: seq<string>, cur: string, n: nat): string
    requires |opts| == 4
  {
    if n == 0 then cur else Step(opts, Clicks(opts, cur, n - 1))
  }

  /** A click on the option at `i` shows the option at `i + 1`, wrapping round after the last. */
  lemma StepAt(opts: seq<string>, i: nat)
    requires |opts| == 4 && Distinct(opts) && i < 4
    ensures Step(opts, opts[i]) == opts[(i + 1) % 4]
  {
    assert IndexOf(opts, opts[i]) == i;
  }

  /** `n` clicks from the option at `i` land on the option `n` places further on, wrapping round. */
  lemma {:induction false} ClicksFrom(opts: seq<string>, i: nat, n: nat)
    requires |opts| == 4 && Distinct(opts) && i < 4
    ensures Clicks(opts, opts[i], n) == opts[(i + n) % 4]
  {
    if n > 0 {
      var m := n - 1;
      ClicksFrom(opts, i, m);
      StepAt(opts, (i + m) % 4);
      WrapStep(i, m, n);
    }
  }

  lemma WrapStep(i: nat, m: nat, n: nat)
    requires n == m + 1
    ensures ((i + m) % 4 + 1) % 4 == (i + n) % 4
  {
  }

  lemma WrapBack(i: nat, n: nat)
    requires i < 4 && 0 < n <= 4
    ensures (i + n) % 4 == i <==> n == 4
  {
  }

  /** Each click on a language option moves to the next one in the list, the last going back to the first. */
  lemma NextLangAt(i: nat)
    requires i < |LangOptions|
    ensures NextLang(LangOptions[i]) == LangOptions[(i + 1) % 4]
  {
    LangOptionsDistinct();
    StepAt(LangOptions, i);
  }

  /** From any language option, four clicks come back to it, and fewer never do. */
  lemma LangCycle(i: nat, n: nat)
    requires i < |LangOptions| && 0 < n <= |LangOptions|
    ensures Clicks(LangOptions, LangOptions[i], n) == LangOptions[i] <==> n == |LangOptions|
  {
    LangOptionsDistinct();
    ClicksFrom(LangOptions, i, n);
    WrapBack(i, n);
  }

  const SecondMs := 1000
  const MinuteMs := 60 * SecondMs
  const HourMs := 60 * MinuteMs
  const DayMs := 24 * HourMs

  datatype Clock = Clock(days: nat, hours: nat, mins: nat, secs: nat)

  function Millis(c: Clock): nat
  {
    c.days * DayMs + c.hours * HourMs + c.mins * MinuteMs + c.secs * SecondMs
  }

  /** The milliseconds left, never negative. */
  function Remaining(target: int, now: int): nat
  {
    if target - now > 0 then target - now else 0
  }

  /** What one tick shows, and whether it stops the interval. */
  datatype Tick = Tick(shown: Clock, stop: bool)

  /**
   * One `tick` of the deals countdown: the time left split into days, hours,
   * minutes and whole seconds (the fraction of a second dropped), stopping once
   * the target is reached.
   */
  function CountdownTick(target: int, now: int): (t: Tick)
    ensures t.shown.hours < 24 && t.shown.mins < 60 && t.shown.secs < 60
    ensures Millis(t.shown) <= Remaining(target, now) < Millis(t.shown) + SecondMs
    ensures t.stop <==> target <= now
    ensures t.stop ==> t.shown == Clock(0, 0, 0, 0)
  {
    var d := Remaining(target, now);
    var days := d / DayMs;
    var d1 := d - days * DayMs;
    var hours := d1 / HourMs;
    var d2 := d1 - hours * HourMs;
    var mins := d2 / MinuteMs;
    var d3 := d2 - mins * MinuteMs;
    var secs := d3 / SecondMs;
    Tick(Clock(days, hours, mins, secs), target - now <= 0)
  }

  /** The whole seconds a clock stands for. */
  function TotalSecs(c: Clock): nat
  {
    ((c.days * 24 + c.hours) * 60 + c.mins) * 60 + c.secs
  }

  lemma MillisOfSecs(c: Clock)
    ensures Millis(c) == TotalSecs(c) * 1000
  {
  }

  /** The shown clock is the only one within range that fits the time left. */
  lemma CountdownUnique(target: int, now: int, c: Clock)
    requires c.hours < 24 && c.mins < 60 && c.secs < 60
    requires Millis(c) <= Remaining(target, now) < Millis(c) + SecondMs
    ensures c == CountdownTick(target, now).shown
  {
    var s := CountdownTick(target, now).shown;
    MillisOfSecs(c);
    MillisOfSecs(s);
    SameWindow(TotalSecs(c), TotalSecs(s), Remaining(target, now));
    MixedRadixUnique(c, s);
  }

  /** Two whole-second counts whose one-second windows share a millisecond are equal. */
  lemma SameWindow(a: nat, b: nat, d: int)
    requires a * 1000 <= d < a * 1000 + 1000
    requires b * 1000 <= d < b * 1000 + 1000
    ensures a == b
  {
  }

  lemma MixedRadixUnique(c: Clock, s: Clock)
    requires c.hours < 24 && c.mins < 60 && c.secs < 60
    requires s.hours < 24 && s.mins < 60 && s.secs < 60
    requires TotalSecs(c) == TotalSecs(s)
    ensures c == s
  {
    Digit60(( c.days * 24 + c.hours) * 60 + c.mins, c.secs, (s.days * 24 + s.hours) * 60 + s.mins, s.secs);
    Digit60(c.days * 24 + c.hours, c.mins, s.days * 24 + s.hours, s.mins);
    Digit24(c.days, c.hours, s.days, s.hours);
  }

  lemma Digit60(hi: nat, lo: nat, hi2: nat, lo2: nat)
    requires lo < 60 && lo2 < 60 && hi * 60 + lo == hi2 * 60 + lo2
    ensures hi == hi2 && lo == lo2
  {
  }

  lemma Digit24(hi: nat, lo: nat, hi2: nat, lo2: nat)
    requires lo < 24 && lo2 < 24 && hi * 24 + lo == hi2 * 24 + lo2
    ensures hi == hi2 && lo == lo2
  {
  }

  function Min(a: int, b: int): int
  {
    if a < b then a else b
  }

  /**
   * The id a tile's "Add" button uses: its `data-id`, else its image source,
   * else the first 36 characters of its title, else `p_` and its position.
   */
  function TileId(dataId: string, img: string, title: string, idx: nat): (r: string)
    ensures r != ""
    ensures dataId != "" ==> r == dataId
    ensures dataId == "" && img != "" ==> r == img
    ensures dataId == "" && img == "" && title != "" ==>
      |r| == Min(36, |title|) && r == title[..|r|]
    ensures dataId == "" && img == "" && title == "" ==>
      && |r| > 2 && r[..2] == "p_" && IsDecimal(r[2..]) && DecimalValue(r[2..]) == idx
      && (r[2] == '0' ==> |r| == 3)
  {
    if dataId != "" then dataId
    else if img != "" then img
    else if title != "" then title[..Min(36, |title|)]
    else
      var digits := NatToString(idx);
      assert ("p_" + digits)[2..] == digits;
      DecimalValueOfNatToString(idx);
      "p_" + digits
  }

  predicate IsDecimal(s: string)
  {
    |s| > 0 && forall i :: 0 <= i < |s| ==> IsDigit(s[i])
  }

  /** Bare tiles (no data-id, image or title) at different positions get different ids. */
  lemma TileIdFallbackDistinct(i: nat, j: nat)
    requires i != j
    ensures TileId("", "", "", i) != TileId("", "", "", j)
  {
    var a := TileId("", "", "", i);
    var b := TileId("", "", "", j);
    assert a[2..] == NatToString(i);
    assert b[2..] == NatToString(j);
    NatToStringInjective(i, j);
  }
}

=== FILE: text.dfy ===
/**
 * String primitives with JavaScript's meaning: `String.prototype.split` on a
 * one-character separator, and `String(n)` for a non-negative integer.
 */
module Text {

  /** The pieces between separators, as `s.split(sep)`: always at least one piece. */
  function Split(s: string, sep: char): (parts: seq<string>)
    ensures |parts| >= 1
    ensures forall i :: 0 <= i < |parts| ==> sep !in parts[i]
    decreases |s|
  {
    if |s| == 0 then [""]
    else
      var rest := Split(s[1..], sep);
      if s[0] == sep then [""] + rest
      else [[s[0]] + rest[0]] + rest[1..]
  }

  /** The inverse of `Split`: the pieces glued back with the separator, as `parts.join(sep)`. */
  function Join(parts: seq<string>, sep: char): string
    requires |parts| >= 1
    decreases |parts|
  {
    if |parts| == 1 then parts[0] else parts[0] + [sep] + Join(parts[1..], sep)
  }

  /** Joining the pieces of a split gives back the string: splitting loses nothing. */
  lemma {:induction false} JoinSplit(s: string, sep: char)
    ensures Join(Split(s, sep), sep) == s
    decreases |s|
  {
    if |s| > 0 {
      var rest := Split(s[1..], sep);
      JoinSplit(s[1..], sep);
      if s[0] == sep {
        assert Split(s, sep) == [""] + rest;
        assert ([""] + rest)[1..] == rest;
        assert s == [sep] + s[1..];
      } else {
        var parts := Split(s, sep);
        assert parts == [[s[0]] + rest[0]] + rest[1..];
        if |rest| == 1 {
          assert s == [s[0]] + s[1..];
        } else {
          assert parts[1..] == rest[1..];
          assert Join(rest, sep) == rest[0] + [sep] + Join(rest[1..], sep);
          assert s == [s[0]] + s[1..];
        }
      }
    }
  }

  /** Splitting a separator-free word followed by more text: the word starts the first piece. */
  lemma {:induction false} SplitAfterWord(w: string, t: string, sep: char)
    requires sep !in w
    ensures Split(w + t, sep) == [w + Split(t, sep)[0]] + Split(t, sep)[1..]
    decreases |w|
  {
    if |w| > 0 {
      SplitAfterWord(w[1..], t, sep);
      assert (w + t)[1..] == w[1..] + t;
      assert w[0] != sep by { assert w[0] in w; }
      assert [w[0]] + (w[1..] + Split(t, sep)[0]) == w + Split(t, sep)[0];
    } else {
      var parts := Split(t, sep);
      assert w + t == t;
      assert w + parts[0] == parts[0];
      assert parts == [parts[0]] + parts[1..];
    }
  }

  /** Splitting the join of separator-free pieces gives the pieces back. */
  lemma {:induction false} SplitJoin(parts: seq<string>, sep: char)
    requires |parts| >= 1
    requires forall i :: 0 <= i < |parts| ==> sep !in parts[i]
    ensures Split(Join(parts, sep), sep) == parts
    decreases |parts|
  {
    if |parts| == 1 {
      SplitAfterWord(parts[0], "", sep);
      assert parts[0] + "" == parts[0];
    } else {
      var tail := Join(parts[1..], sep);
      SplitJoin(parts[1..], sep);
      assert Split([sep] + tail, sep) == [""] + parts[1..];
      SplitAfterWord(parts[0], [sep] + tail, sep);
      assert parts[0] + [sep] + tail == parts[0] + ([sep] + tail);
      assert parts[0] + "" == parts[0];
      assert parts == [parts[0]] + parts[1..];
    }
  }

  /** The character of a decimal digit. */
  function DigitChar(d: nat): char
    requires d < 10
  {
    "0123456789"[d]
  }

  predicate IsDigit(c: char)
  {
    '0' <= c <= '9'
  }

  /** The value of a decimal digit character. */
  function DigitValue(c: char): nat
    requires IsDigit(c)
  {
    c as int - '0' as int
  }

  /** The value of a string of decimal digits, read most significant first. */
  function DecimalValue(s: string): nat
    requires forall i :: 0 <= i < |s| ==> IsDigit(s[i])
    decreases |s|
  {
    if |s| == 0 then 0
    else 10 * DecimalValue(s[..|s| - 1]) + DigitValue(s[|s| - 1])
  }

  /** `String(n)` for a non-negative integer: its decimal digits, no leading zero. */
  function NatToString(n: nat): (r: string)
    ensures |r| >= 1
    ensures forall i :: 0 <= i < |r| ==> IsDigit(r[i])
    ensures r[0] == '0' <==> n == 0
    decreases n
  {
    if n < 10 then
      assert DigitChar(n) == '0' <==> n == 0;
      [DigitChar(n)]
    else NatToString(n / 10) + [DigitChar(n % 10)]
  }

  /** Reading the decimal digits of `n` gives back `n`. */
  lemma {:induction false} DecimalValueOfNatToString(n: nat)
    ensures DecimalValue(NatToString(n)) == n
    decreases n
  {
    var s := NatToString(n);
    if n >= 10 {
      DecimalValueOfNatToString(n / 10);
      assert s[..|s| - 1] == NatToString(n / 10);
    }
  }

  /** Distinct numbers print as distinct strings. */
  lemma NatToStringInjective(a: nat, b: nat)
    ensures NatToString(a) == NatToString(b) <==> a == b
  {
    if NatToString(a) == NatToString(b) {
      DecimalValueOfNatToString(a);
      DecimalValueOfNatToString(b);
    }
  }
}
